=== FILE: README.md ===
# URL shortener core, modelled in Dafny

A model of the decision and bookkeeping logic of a browser-only URL
shortener. Users submit long URLs, one at a time or up to five in a batch.
The app validates them and mints (or accepts) a shortcode. It stores the
mapping in two local tables:

- `urls`: the URL records;
- `analytics`: click lists keyed by shortcode.

Visiting a short link leads to one of three outcomes: not found, expired, or
a recorded click followed by a redirect. A statistics page filters and
counts the stored records and groups each link's clicks by traffic source.

Everything is a pure function over an explicit `Store` value,
`Store(urls: seq<UrlRecord>, analytics: map<string, seq<Click>>)`. The
browser's non-deterministic or foreign parts are parameters:

- the clock, as integer milliseconds: `now`, `clickTime`, and the
  statistics page's two sequences of readings, one per record and count;
- the random source of `nanoid(8)`, as an endless stream
  `Draws = nat -> string` read from a cursor. Each generation returns the
  cursor after the draws it consumed;
- the WHATWG URL parser, as `string -> Option<string>`. For validation it
  returns the protocol and for click sources the hostname; `None` means the
  constructor throws;
- JavaScript's `Number(...)` coercion of the validity text, as
  `string -> Option<real>` (`None` for `NaN`);
- the page origin (`window.location.origin`), the geolocation reply, and
  `document.referrer`.

Modules follow the source files:

| module | file |
|---|---|
| `Validators` | `src/utils/validators.js` |
| `Generator` | `src/utils/urlGenerator.js` |
| `Store` | `src/services/storageService.js` |
| `Analytics` | `src/services/analyticsService.js` |
| `Shortener` | `src/hooks/useURLShortener.js` |
| `Redirect` | `src/components/URLRedirect.jsx` (`handleRedirect`) |
| `Form` | `src/components/URLShortener/URLShortenerForm.jsx` |
| `Statistics` | `src/components/Statistics/StatisticsPage.jsx` |
| `ClickDetails` | `src/components/Statistics/ClickDetails.jsx` |

`Base` (Option, Result), `Seqs` (filter, subsequence, count, reverse) and
`Text` (`includes`, ASCII `toLowerCase`, `[a-zA-Z0-9]`) are shared
vocabulary.

Behaviours of the code as written that the model keeps and proves:

- The generator takes a 10th draw but gives up before testing it. Only
  draws 1 to 9 can be returned, and the outcome does not depend on the 10th
  draw (`Generator.TenthDrawIgnored`).
- `recordClick` appends a click even when no record has the code, which
  leaves an orphan click. The expiry sweep never removes clicks.
- The batch form checks every custom code against one snapshot taken before
  the batch. Two rows with the same new code are both saved
  (`Form.BatchAllowsDuplicateCodes`). Single-URL shortening keeps codes
  unique (`Shortener.ShortenPreservesUnique`).
- A record saved under a code that is already in use cannot be reached by
  lookup. The earlier record keeps answering (`Store.SaveThenLookup`).
- Rows of the form are removed by id. Two rows added in the same
  millisecond share an id and go together, so the list can become empty
  (`Form.SameIdRowsBothRemoved`).
- The statistics page reads the clock afresh for every record it tests,
  once in the active count and again in the expired count. A record that
  expires between its two readings is counted in both. A single count can
  also show a value that no single instant gives
  (`Statistics.PerRecordReadingsExample`).
- The analytics table is a plain JavaScript object. A custom code such as
  `valueOf` passes validation, but reading it from the table finds the
  property every object inherits. `recordClick` then fails silently, so the
  visitor is redirected and nothing is recorded
  (`Redirect.InheritedCodeRedirectsUnrecorded`).
- A validity long enough to push the expiry past the `Date` range
  (8.64e15 ms, section 21.4.1 of ECMA-262) passes validation, but
  `saveURL` throws "Invalid time value" and nothing is saved.

## Model

| member | source | states |
|---|---|---|
| `Validators.ValidateURL` | src/utils/validators.js:3-20 | A missing or empty URL is rejected with "URL is required" before any parsing. Otherwise the URL is accepted exactly when it parses and its protocol is `http:` or `https:`. A parse failure gives "Invalid URL format" and any other protocol gives the scheme message. |
| `Validators.ValidateValidity` | src/utils/validators.js:22-35 | A blank value gives 30. NaN or a number below 1 fails with the positive-number message. An accepted number n gives v with v <= n < v+1 (its floor), and every accepted value is at least 1. |
| `Validators.ValidateShortcode` | src/utils/validators.js:37-57 | An empty code passes whatever codes are in use. A non-empty code passes iff it is all `[a-zA-Z0-9]`, has length 3 to 20, and is not in use. Checks run in the order format, length, uniqueness, and the first failing one is reported. |
| `Generator.Attempt` | src/utils/urlGenerator.js:11-19 | From attempt k on, the loop either returns the first non-colliding draw among the remaining tested ones, or throws exactly when all of them collide. The cursor advances by the number of draws taken. |
| `Generator.GenerateShortcode` | src/utils/urlGenerator.js:4-23 | The result is never a code in use and is the first non-colliding draw. Only draws 1 to 9 can be returned. It throws "Unable to generate unique shortcode" iff draws 1 to 9 all collide, after consuming 10 draws. With no codes in use it returns the first draw after one attempt. |
| `Generator.TenthDrawIgnored` | src/utils/urlGenerator.js:13-18 | Two draw streams that agree on the first nine draws give the same outcome, so a fresh 10th draw never rescues a generation. |
| `Generator.CreateShortURL` | src/utils/urlGenerator.js:25-28 | The short link is the origin, then `/`, then the code, and each part can be read back at its position. |
| `Generator.ShortURLInjective` | src/utils/urlGenerator.js:25-28 | Under one origin, equal short links have equal codes. |
| `Store.SaveURL` | src/services/storageService.js:19-37 | Fails with "Invalid time value", saving nothing, exactly when `now` or the expiry is outside the `Date` range. Otherwise exactly one record is appended and earlier records are unchanged. The new record has 0 clicks, `createdAt = now`, and `expiresAt - createdAt = validity * 60000`. The caller's fields are copied, and the analytics table is untouched. |
| `Store.FirstMatch` | src/services/storageService.js:73 | Returns the least index whose record carries the code, or none iff no record does. |
| `Store.AllShortcodes` | src/services/storageService.js:49-52 | The code list has the length and order of the URL list. |
| `Store.IsShortcodeExists` | src/services/storageService.js:44-47 | Holds iff the code is in the code list. |
| `Store.GetURLByShortcode` | src/services/storageService.js:39-42 | Finds a record iff the code is in use. What it returns is the first record carrying the code. |
| `Store.SaveThenLookup` | src/services/storageService.js:19-42 | After a successful save of a new code, lookup returns the saved record. After saving a code already in use, lookup still returns the earlier record. |
| `Store.FirstMatchAppend` | src/services/storageService.js:39-42 | Appending a record changes the first match only when there was none. |
| `Store.GetURLAnalytics` | src/services/storageService.js:95-98 | Returns the stored click list. A code with no list reads as an empty list, except a code naming an inherited object property, which reads as something that is not a list, and only such a code does. |
| `Store.MergeClick` | src/services/storageService.js:62-67 | A key present in the click data wins, even when empty. Source defaults to `direct`, location to `Unknown` and timestamp to `now` only when absent. |
| `Store.RecordClick` | src/services/storageService.js:54-83 | For a code naming an inherited object property without an own entry, nothing changes. Otherwise exactly one click is appended to the code's list, which is created if absent, even when no record has the code. Other codes' lists are unchanged. Only the first matching record's count changes, by one. With no matching record the URL table is unchanged. |
| `Store.RemoveExpiredURLs` | src/services/storageService.js:100-111 | Keeps an order-preserving subsequence containing exactly the records with `expiresAt > now`, as many as there are. Analytics are untouched. |
| `Store.SweepIdempotent` | src/services/storageService.js:100-111 | A second sweep at the same instant changes nothing. |
| `Analytics.OrUnknown` | src/services/analyticsService.js:11-13 | The field is never empty. It is the reply's value when that is present and non-empty, and any value other than `Unknown` came from the reply. |
| `Analytics.Geolocation` | src/services/analyticsService.js:4-23 | A failed lookup gives `Unknown` for all three fields. Otherwise each field independently falls back to `Unknown`, and every non-`Unknown` field is the reply's. |
| `Analytics.FirstPlatform` | src/services/analyticsService.js:35-38 | Finds the least index of a platform name occurring in the hostname, or none when no name occurs. |
| `Analytics.ClickSource` | src/services/analyticsService.js:25-44 | An empty referrer gives `direct` and an unparsable one gives `unknown`. Otherwise the first of google, facebook, twitter, linkedin contained in the hostname is returned, else the hostname itself. |
| `Analytics.TrackClick` | src/services/analyticsService.js:46-60 | The click data carries the time, the source, and the location triple. Its location string is the city, `, `, then the country. |
| `Analytics.TrackedClickStoredVerbatim` | src/services/storageService.js:62-67 | A click built by `trackClick` is stored exactly as built. None of `recordClick`'s defaults apply. |
| `Redirect.HandleRedirect` | src/components/URLRedirect.jsx:15-46 | Not found iff no record has the code. Expired iff the first matching record has `expiresAt <= now`. In both cases the store is unchanged. Otherwise the target is that record's URL and the store is exactly `recordClick`'s result. For an ordinary code that is one more click for the code and one more on that record only. For an inherited-key code nothing is recorded. |
| `Redirect.SweepAgreesWithRedirect` | src/components/URLRedirect.jsx:28 | A stored record is kept by a sweep at `now` iff the redirect would not call it expired at `now`. |
| `Redirect.InheritedCodeRedirectsUnrecorded` | src/services/storageService.js:58-62 | The custom code `valueOf` passes validation, yet visiting it redirects with the store unchanged, and its click list reads as no list. |
| `Redirect.SweepThenRedirectNeverExpired` | src/components/URLRedirect.jsx:19-32 | Right after a sweep at `now`, no visit at `now` ends as expired. |
| `Shortener.ShortenURL` | src/hooks/useURLShortener.js:11-62 | URL, validity and shortcode (or generation) are checked in that order. The first failure is returned with the store unchanged, and the cursor is unchanged unless generation drew. A request succeeds exactly when all checks pass and its dates are in range; otherwise it fails with "Invalid time value". On a save failure the cursor is where the checks left it. On success exactly one record is appended, under a code not in use before. The record is created now and expires `validity` minutes later, holding the validated validity (30 if blank). A typed code is used verbatim; otherwise the code is the one generated against the current codes. |
| `Shortener.ShortenPreservesUnique` | src/hooks/useURLShortener.js:30-51 | If no two records share a code before a single-URL shortening, none do after. |
| `Form.AddInput` | src/components/URLShortener/URLShortenerForm.jsx:34-45 | A blank row is added only when there are fewer than 5. A list of at most 5 stays at most 5. |
| `Form.AddKeepsIdsDistinct` | src/components/URLShortener/URLShortenerForm.jsx:34-45 | Adding a row at a clock reading later than every id keeps ids distinct. |
| `Form.RemoveInput` | src/components/URLShortener/URLShortenerForm.jsx:47-52 | Nothing changes with one row or fewer. Otherwise the result is a subsequence without the id that keeps every other row, as many times as it occurs. With distinct ids at most one row goes, so the list never becomes empty. |
| `Form.CountOthers` | src/components/URLShortener/URLShortenerForm.jsx:49 | With distinct ids at most one row carries a given id. |
| `Form.SameIdRowsBothRemoved` | src/components/URLShortener/URLShortenerForm.jsx:47-52 | Two rows with the same id are both removed, leaving an empty list. |
| `Form.ChangeInput` | src/components/URLShortener/URLShortenerForm.jsx:54-58 | Rows with another id are untouched. The row with the id reads back the new value in the named field, has its error cleared, and keeps its other fields. |
| `Form.ValidateInputs` | src/components/URLShortener/URLShortenerForm.jsx:60-95 | Only each row's error changes. A row ends up with no error iff its URL and validity pass and its shortcode is empty or passes against the snapshot. An empty shortcode never gets a shortcode error. In a row with an error, the URL, validity and typed shortcode fields each hold exactly their own validator's message, or nothing when that validator accepts. The result is true iff no row has an error. |
| `Form.SaveRow` | src/components/URLShortener/URLShortenerForm.jsx:114-124 | A row fails exactly when it has no typed code and generation runs out of attempts, giving the exhaustion error, or when its expiry is out of range, giving "Invalid time value". A typed code draws nothing; otherwise the generation's draws are consumed. A saved row is appended under its typed code, or else under the code that generation against the current codes returns, which is not in use at that moment. Its short link is built from the origin and that code. Its record carries the row's URL and validity and no clicks, is created now, and expires `validity` minutes later. |
| `Form.SaveAll` | src/components/URLShortener/URLShortenerForm.jsx:112-126 | Records are appended in row order and never rolled back. Without a failure every row is saved. A failure leaves fewer rows saved, with the exhaustion or time-range error. |
| `Form.SaveAllStopsAtFailingRow` | src/components/URLShortener/URLShortenerForm.jsx:112-126 | The loop stops only at a row that really fails: saving that row against the store the earlier rows left gives the loop's error and final cursor. |
| `Form.SaveAllRecords` | src/components/URLShortener/URLShortenerForm.jsx:114-125 | Each saved record carries its row's URL and validated validity, no clicks, a typed code verbatim, and the short link for its code. It is created at the submit instant and expires `validity` minutes later. |
| `Form.SaveAllFreshCodes` | src/components/URLShortener/URLShortenerForm.jsx:115 | A generated code differs from every code stored before it, including earlier rows of the same batch. |
| `Form.HandleSubmit` | src/components/URLShortener/URLShortenerForm.jsx:97-155 | The error notice appears iff some row fails against the one snapshot, and then nothing is saved or drawn. Otherwise the notice is "shortened all rows" or "failed". The store and cursor are the save loop's, and "failed" appears iff the loop stopped at a failing row. On success the store grows by exactly one record per row, the results are in row order, and the form is reset. On failure the records already saved stay, and fewer than all rows are saved. Short of success, the rows are kept as typed with their errors recomputed, and the shown results do not change. |
| `Form.BatchAllowsDuplicateCodes` | src/components/URLShortener/URLShortenerForm.jsx:62-126 | Two rows with the same new custom code both pass validation and are both saved, leaving two records with one code. |
| `Statistics.FilterURLs` | src/components/Statistics/StatisticsPage.jsx:44-64 | The search pass followed by the status pass equals one filter by both conditions. The result is an order-preserving subsequence holding exactly the records that match the lower-cased search (when the term is non-empty) and the status chip, each as many times as it occurs. With no term and no chip it is the whole list. |
| `Statistics.ComputeStats` | src/components/Statistics/StatisticsPage.jsx:66-71 | The total is the list length. Active counts the records live at their own reading in the first pass, and expired counts those expired at their own reading in the second. With equal readings per record they add up to the total. With each record's second reading no earlier than its first, they add up to at least the total. The click total is the sum of counts. |
| `Statistics.OneInstantCounts` | src/components/Statistics/StatisticsPage.jsx:68-69 | With every reading at one instant, the counts equal those of the sweep's and the redirect's tests at that instant. |
| `Statistics.PerRecordReadingsExample` | src/components/Statistics/StatisticsPage.jsx:68 | Two records expiring at 5 ms, tested at readings 4 and 5, give one active link, a count no single instant gives. |
| `Statistics.StatusCountsCover` | src/components/Statistics/StatisticsPage.jsx:68-69 | With equal readings per record, live and expired counts partition the list. With later second readings they overlap. |
| `Statistics.TotalClicksBump` | src/components/Statistics/StatisticsPage.jsx:70 | Raising one record's count by one raises the sum by one. |
| `Statistics.RecordClickTotal` | src/services/storageService.js:54-77 | A recorded click raises the page's click total by one iff some record has the code and the code does not name an inherited object property. |
| `Statistics.SweepLeavesNothingExpired` | src/components/Statistics/StatisticsPage.jsx:66-69 | Right after a sweep at `now`, with every reading at `now`, nothing counts as expired and every record counts as active. |
| `Text.ContainsIff` | src/components/Statistics/StatisticsPage.jsx:50-51 | `includes` holds iff the term occurs at some position. |
| `ClickDetails.TallyCount` | src/components/Statistics/ClickDetails.jsx:29 | One reduce step raises the count shown for its source by one and leaves every other source's count alone. |
| `ClickDetails.TallySum` | src/components/Statistics/ClickDetails.jsx:29 | One reduce step adds one to the sum of counts. |
| `ClickDetails.TallySources` | src/components/Statistics/ClickDetails.jsx:29 | One reduce step adds its source to the set of sources with an entry. |
| `ClickDetails.TallyDistinct` | src/components/Statistics/ClickDetails.jsx:29 | One reduce step never creates a second entry for a source. |
| `ClickDetails.BySource` | src/components/Statistics/ClickDetails.jsx:27-31 | Sources are distinct with positive counts. The count for every source equals the number of clicks from it, and a source with no entry has none. The counts sum to the number of clicks. |
| `ClickDetails.ChipCountsMatch` | src/components/Statistics/ClickDetails.jsx:44-51 | Every chip shows the number of clicks from its own source. |
| `ClickDetails.Recent` | src/components/Statistics/ClickDetails.jsx:68 | The recent list has min(10, n) clicks, and its i-th entry is the i-th from the end. |
| `ClickDetails.Render` | src/components/Statistics/ClickDetails.jsx:16-25 | The "no clicks" panel appears iff the list is empty. Otherwise the panel shows the per-source counts and the recent clicks of that same list. |
| `ClickDetails.PanelFor` | src/components/Statistics/ClickDetails.jsx:16-28 | The panel is fed what `getURLAnalytics` returns. An own list, or the empty default, is rendered as a list. An inherited name is not a list. For one of the zero-argument methods `valueOf`, `toString` or `toLocaleString`, it reads as the "no clicks" panel. Every other inherited name gets past the length check, and the call to `reduce` throws. |
| `ClickDetails.InheritedCodePanels` | src/components/Statistics/ClickDetails.jsx:16-28 | With no clicks recorded, a code named `valueOf` shows the "no clicks" panel, and one named `constructor` throws. |

## Left out

- Browser storage and JSON. The two tables are a value. Unreadable or
  missing data reading as empty is the `EmptyStore` default. Write failures
  (a full quota making `saveURL` throw, or `recordClick` failing halfway
  between its two writes) are not modelled: every write succeeds.
- `Redirect.HandleRedirect`: the expiry check and `recordClick` see the
  same store. In the source, the geolocation request is awaited between
  them (`src/components/URLRedirect.jsx:28-36`). The minute-by-minute sweep
  of `src/App.js:41-43`, or another tab, can change the tables meanwhile.
  For example, a record swept during the request is still redirected to,
  but its click is kept only as an orphan. The `error` state is unreachable
  in the model: store reads never throw, `recordClick` swallows its own
  errors, and `trackClick` cannot fail.
- The WHATWG URL parser, `window.location.origin` and `document.referrer`.
  They are foreign to the model and appear as parameters.
- `nanoid` randomness: replaced by a stream of draws, each any string.
  `nanoid(8)` draws 8 characters from `A-Za-z0-9_-`, and that shape is not
  modelled. A generated code may therefore contain `_` or `-`, and so it
  need not pass `ValidateShortcode`. The model puts no such demand on it.
- The request to the geolocation service: network I/O. Only the defaulting
  of its reply is modelled.
- `Validators.ValidateValidity`: JavaScript `Number(...)` and IEEE edge
  cases are left out. The input is blank, NaN or a finite real, so
  `"Infinity"` is not represented. It passes the source's NaN-only check
  and then fails in `saveURL` with the same range error the model gives
  for a finite validity that is too large.
- `Store.SaveURL`: the source reads the clock up to three times (id,
  `createdAt`, `expiresAt`); the model uses one instant. Ids are the save
  instant, not its decimal string. The batch loop also saves all its rows
  at one instant.
- `Store.UrlRecord` has a `clicks` field that is always present. The
  `|| 0` fallbacks in `recordClick` and the statistics total apply only to
  records written by other code.
- ISO-8601 strings, `Date` parsing and `date-fns` formatting: all times
  are integer milliseconds.
- `Statistics.FilterURLs`: `toLowerCase` is modelled for ASCII letters
  only; other Unicode case mappings are left out.
- `ClickDetails.BySource`: the order of entries is first appearance, which
  matches `Object.entries` for non-numeric keys. The order itself is not
  stated as a property.
- `ClickDetails.BySource`: the tally's accumulator starts as a plain
  object, and the model does not treat sources that name an inherited
  property as special. In the source, a referrer host named `__proto__`
  gets no entry, so the counts no longer add up to the number of clicks.
  One named `constructor`, `toString` and so on gets a string instead of a
  count. Every source is counted as an ordinary key.
- `ClickDetails.ChipCountsMatch`: holds for sources that do not name an
  inherited object property, for the reason above.
- React rendering, hooks, routing, timers (the periodic sweep and the
  5-second refresh), notifications and clipboard calls: UI and I/O. So are
  `App.js`, `Header.jsx`, `URLInput.jsx`, `ResultDisplay.jsx`,
  `URLStatCard.jsx` (its expiry check is the redirect's `IsExpiredAt`) and
  `ErrorBoundary.jsx`.
- `src/hooks/useAnalytics.js` is a thin wrapper over two store reads;
  `src/utils/logger.js` only logs; `src/constants/index.js` holds constants
  the modelled logic does not read.

=== FILE: analytics.dfy ===
/** Click capture of `src/services/analyticsService.js`: the traffic source
    derived from the referrer, the defaulting of the geolocation reply, and
    the click data `trackClick` assembles. The network request and the URL
    parser are outside the model: their results are parameters. */
module Analytics {
  import opened Base
  import opened Text
  import opened Store

  const Unknown := "Unknown"
  const DirectSource := "direct"
  const UnparsableSource := "unknown"
  /** Hostname fragments recognised as platforms, in the order they are tried. */
  const Platforms := ["google", "facebook", "twitter", "linkedin"]

  /** The body of the geolocation reply, or the failure of the request or of
      its JSON decoding. Each field may be missing. */
  datatype GeoResponse = GeoFailed | GeoReply(city: Option<string>, region: Option<string>, countryName: Option<string>)

  /** `value || 'Unknown'` for a string field that may be missing or empty. */
  function OrUnknown(v: Option<string>): (r: string)
    ensures r != ""
    ensures r != Unknown ==> v == Some(r)
    ensures v.Some? && v.value != "" ==> r == v.value
  {
    if v.Some? && v.value != "" then v.value else Unknown
  }

  /** `getGeolocation`: every field falls back to `Unknown` on its own. */
  function Geolocation(resp: GeoResponse): (loc: Location)
    ensures resp.GeoFailed? ==> loc == Location(Unknown, Unknown, Unknown)
    // no field is ever empty, and a field that is not `Unknown` came from the reply
    ensures loc.city != "" && loc.region != "" && loc.country != ""
    ensures loc.city != Unknown ==> resp.GeoReply? && resp.city == Some(loc.city)
    ensures loc.region != Unknown ==> resp.GeoReply? && resp.region == Some(loc.region)
    ensures loc.country != Unknown ==> resp.GeoReply? && resp.countryName == Some(loc.country)
    // a present, non-empty field is used as is
    ensures resp.GeoReply? && resp.city.Some? && resp.city.value != "" ==> loc.city == resp.city.value
    ensures resp.GeoReply? && resp.region.Some? && resp.region.value != "" ==> loc.region == resp.region.value
    ensures resp.GeoReply? && resp.countryName.Some? && resp.countryName.value != "" ==>
      loc.country == resp.countryName.value
  {
    match resp
    case GeoFailed => Location(Unknown, Unknown, Unknown)
    case GeoReply(city, region, country) => Location(OrUnknown(city), OrUnknown(region), OrUnknown(country))
  }

  /** The first of `platforms` that occurs in `host`. */
  function FirstPlatform(host: string, platforms: seq<string>): (r: Option<nat>)
    ensures r.Some? ==>
      && r.value < |platforms|
      && Contains(host, platforms[r.value])
      && forall j :: 0 <= j < r.value ==> !Contains(host, platforms[j])
    ensures r.None? ==> forall j :: 0 <= j < |platforms| ==> !Contains(host, platforms[j])
  {
    if |platforms| == 0 then None
    else if Contains(host, platforms[0]) then Some(0)
    else match FirstPlatform(host, platforms[1..])
      case None => None
      case Some(i) => Some(i + 1)
  }

  /** `Platforms[k]` is the first platform name that occurs in `host`. */
  ghost predicate IsFirstPlatform(host: string, k: int) {
    && 0 <= k < |Platforms|
    && Contains(host, Platforms[k])
    && forall j :: 0 <= j < k ==> !Contains(host, Platforms[j])
  }

  /** `getClickSource` for the page's `document.referrer`. `hostOf` is the
      browser's URL parser: the hostname, or `None` when parsing throws. */
  function ClickSource(referrer: string, hostOf: string -> Option<string>): (r: string)
    ensures referrer == "" ==> r == DirectSource
    ensures referrer != "" && hostOf(referrer) == None ==> r == UnparsableSource
    // a hostname containing a platform name maps to the first such name, in order;
    // any other hostname is reported unchanged
    ensures referrer != "" && hostOf(referrer).Some? ==>
      var host := hostOf(referrer).value;
      && (forall k :: IsFirstPlatform(host, k) ==> r == Platforms[k])
      && ((forall j :: 0 <= j < |Platforms| ==> !Contains(host, Platforms[j])) ==> r == host)
  {
    if referrer == "" then DirectSource
    else match hostOf(referrer)
      case None => UnparsableSource
      case Some(host) =>
        match FirstPlatform(host, Platforms)
        case Some(k) => Platforms[k]
        case None => host
  }

  /** The record `trackClick` returns for a click at time `now`. */
  function TrackClick(now: int, geo: GeoResponse, referrer: string, hostOf: string -> Option<string>): (d: ClickData)
    ensures d.timestamp == Some(now)
    ensures d.source == Some(ClickSource(referrer, hostOf))
    ensures d.details == Some(Geolocation(geo))
    // the location reads "city, country" of the looked-up triple
    ensures d.location.Some? && IsPrefix(Geolocation(geo).city + ", ", d.location.value)
    ensures d.location.Some? && d.location.value[|Geolocation(geo).city| + 2..] == Geolocation(geo).country
  {
    var loc := Geolocation(geo);
    ClickData(Some(now), Some(ClickSource(referrer, hostOf)), Some(loc.city + ", " + loc.country), Some(loc))
  }

  /** A click built by `trackClick` has every key, so `recordClick` stores it
      as is: neither its defaults nor its own clock reading apply. */
  lemma TrackedClickStoredVerbatim(
    now: int, geo: GeoResponse, referrer: string, hostOf: string -> Option<string>, storeNow: int)
    ensures MergeClick(TrackClick(now, geo, referrer, hostOf), storeNow) ==
      Click(now, ClickSource(referrer, hostOf),
        Geolocation(geo).city + ", " + Geolocation(geo).country, Some(Geolocation(geo)))
  {
  }
}

=== FILE: base.dfy ===
/** Failure-carrying datatypes shared by every module of the model. */
module Base {

  /** A value that may be absent: a missing object key, `null`/`undefined`,
      or a foreign call that threw. */
  datatype Option<+T> = None | Some(value: T)

  /** An operation that either completes with a value or stops with the
      error message the source throws or returns. */
  datatype Result<+T> = Ok(value: T) | Err(error: string)
}

=== FILE: clickdetails.dfy ===
/** The aggregations of `src/components/Statistics/ClickDetails.jsx`: the
    click count per traffic source and the list of most recent clicks. */
module ClickDetails {
  import opened Seqs
  import opened Store

  /** How many of the recent clicks the table shows. */
  const RecentLimit := 10

  /** One chip of the "Traffic Sources" row. */
  datatype SourceCount = SourceCount(source: string, count: nat)

  /** What the panel shows. */
  datatype View = NoClicks | Details(bySource: seq<SourceCount>, recent: seq<Click>)

  /** Reference count: the clicks whose source is `src`. */
  function CountSource(clicks: seq<Click>, src: string): nat {
    if |clicks| == 0 then 0
    else CountSource(clicks[..|clicks| - 1], src) + (if clicks[|clicks| - 1].source == src then 1 else 0)
  }

  /** The count shown for `src`: that of its first entry, or zero. */
  function CountOf(entries: seq<SourceCount>, src: string): nat {
    if |entries| == 0 then 0
    else if entries[0].source == src then entries[0].count
    else CountOf(entries[1..], src)
  }

  function SumCounts(entries: seq<SourceCount>): nat {
    if |entries| == 0 then 0 else entries[0].count + SumCounts(entries[1..])
  }

  /** No source has two entries. */
  predicate DistinctSources(entries: seq<SourceCount>) {
    forall i, j :: 0 <= i < j < |entries| ==> entries[i].source != entries[j].source
  }

  /** Every entry counts at least one click. */
  predicate PositiveCounts(entries: seq<SourceCount>) {
    forall i :: 0 <= i < |entries| ==> entries[i].count > 0
  }

  /** The sources that have an entry. */
  ghost function SourcesOf(entries: seq<SourceCount>): set<string> {
    set i | 0 <= i < |entries| :: entries[i].source
  }

  /** One step of the `reduce`: `acc[src] = (acc[src] || 0) + 1`. A source
      seen for the first time gets a new entry at the end, as object keys keep
      insertion order. */
  function Tally(entries: seq<SourceCount>, src: string): (r: seq<SourceCount>)
    ensures |r| >= |entries|
    decreases |entries|
  {
    if |entries| == 0 then [SourceCount(src, 1)]
    else if entries[0].source == src then [entries[0].(count := entries[0].count + 1)] + entries[1..]
    else [entries[0]] + Tally(entries[1..], src)
  }

  /** A tally raises the count shown for its source by one and no other. */
  lemma {:induction false} TallyCount(entries: seq<SourceCount>, src: string, t: string)
    ensures CountOf(Tally(entries, src), t) == CountOf(entries, t) + (if t == src then 1 else 0)
    decreases |entries|
  {
    if |entries| > 0 && entries[0].source != src {
      TallyCount(entries[1..], src, t);
      assert Tally(entries, src)[1..] == Tally(entries[1..], src);
    }
  }

  /** A tally adds one click to the total. */
  lemma {:induction false} TallySum(entries: seq<SourceCount>, src: string)
    ensures SumCounts(Tally(entries, src)) == SumCounts(entries) + 1
    decreases |entries|
  {
    if |entries| > 0 {
      if entries[0].source == src {
        assert Tally(entries, src)[1..] == entries[1..];
      } else {
        TallySum(entries[1..], src);
        assert Tally(entries, src)[1..] == Tally(entries[1..], src);
      }
    }
  }

  /** A tally adds its source to the sources that have an entry. */
  lemma {:induction false} TallySources(entries: seq<SourceCount>, src: string)
    ensures SourcesOf(Tally(entries, src)) == SourcesOf(entries) + {src}
    decreases |entries|
  {
    var r := Tally(entries, src);
    if |entries| == 0 {
      SourcesOfCons(SourceCount(src, 1), []);
    } else {
      assert entries == [entries[0]] + entries[1..];
      SourcesOfCons(entries[0], entries[1..]);
      if entries[0].source == src {
        SourcesOfCons(r[0], entries[1..]);
        assert r == [r[0]] + entries[1..];
      } else {
        TallySources(entries[1..], src);
        assert r == [entries[0]] + Tally(entries[1..], src);
        SourcesOfCons(entries[0], Tally(entries[1..], src));
      }
    }
  }

  /** A tally keeps sources distinct. */
  lemma {:induction false} TallyDistinct(entries: seq<SourceCount>, src: string)
    requires DistinctSources(entries)
    ensures DistinctSources(Tally(entries, src))
    decreases |entries|
  {
    var r := Tally(entries, src);
    if |entries| > 0 && entries[0].source != src {
      var rest := Tally(entries[1..], src);
      TallyDistinct(entries[1..], src);
      TallySources(entries[1..], src);
      assert r == [entries[0]] + rest;
      forall k | 0 <= k < |entries[1..]|
        ensures entries[1..][k].source != entries[0].source
      {
        assert entries[1..][k] == entries[k + 1];
      }
      assert entries[0].source !in SourcesOf(entries[1..]);
      forall i, j | 0 <= i < j < |r|
        ensures r[i].source != r[j].source
      {
        if i == 0 {
          assert r[j] == rest[j - 1];
          assert r[j].source in SourcesOf(rest);
        } else {
          assert r[i] == rest[i - 1] && r[j] == rest[j - 1];
        }
      }
    } else if |entries| > 0 {
      assert forall i :: 0 < i < |r| ==> r[i] == entries[i];
    }
  }

  /** A tally keeps every count positive. */
  lemma {:induction false} TallyPositive(entries: seq<SourceCount>, src: string)
    requires PositiveCounts(entries)
    ensures PositiveCounts(Tally(entries, src))
    decreases |entries|
  {
    if |entries| > 0 && entries[0].source != src {
      TallyPositive(entries[1..], src);
      assert Tally(entries, src)[1..] == Tally(entries[1..], src);
    }
  }

  /** The sources of an entry list, one entry at a time. */
  lemma SourcesOfCons(e: SourceCount, rest: seq<SourceCount>)
    ensures SourcesOf([e] + rest) == {e.source} + SourcesOf(rest)
  {
    var r := [e] + rest;
    forall x | x in SourcesOf(r)
      ensures x in {e.source} + SourcesOf(rest)
    {
      var i :| 0 <= i < |r| && r[i].source == x;
      if i > 0 {
        assert rest[i - 1].source == x;
      }
    }
    forall x | x in {e.source} + SourcesOf(rest)
      ensures x in SourcesOf(r)
    {
      if x == e.source {
        assert r[0].source == x;
      } else {
        var i :| 0 <= i < |rest| && rest[i].source == x;
        assert r[i + 1].source == x;
      }
    }
  }

  /** `clicksBySource`: for each source, in order of first appearance, the
      number of clicks that came from it. */
  function BySource(clicks: seq<Click>): (r: seq<SourceCount>)
    ensures DistinctSources(r) && PositiveCounts(r)
    // the count shown for a source is the number of its clicks; a source with no entry has none
    ensures forall t :: CountOf(r, t) == CountSource(clicks, t)
    // the counts add up to the number of clicks
    ensures SumCounts(r) == |clicks|
  {
    if |clicks| == 0 then []
    else
      var before := BySource(clicks[..|clicks| - 1]);
      var src := clicks[|clicks| - 1].source;
      TallyDistinct(before, src);
      TallyPositive(before, src);
      TallySum(before, src);
      TallyCountAll(before, src);
      Tally(before, src)
  }

  lemma TallyCountAll(entries: seq<SourceCount>, src: string)
    ensures forall t :: CountOf(Tally(entries, src), t) == CountOf(entries, t) + (if t == src then 1 else 0)
  {
    forall t {
      TallyCount(entries, src, t);
    }
  }

  /** With distinct sources each entry's own count is the one shown for it. */
  lemma {:induction false} EntryCountIsCountOf(entries: seq<SourceCount>, k: int)
    requires DistinctSources(entries)
    requires 0 <= k < |entries|
    ensures entries[k].count == CountOf(entries, entries[k].source)
    decreases |entries|
  {
    if k > 0 {
      EntryCountIsCountOf(entries[1..], k - 1);
    }
  }

  /** Every chip shows the number of clicks from its source. */
  lemma ChipCountsMatch(clicks: seq<Click>, k: int)
    requires 0 <= k < |BySource(clicks)|
    ensures BySource(clicks)[k].count == CountSource(clicks, BySource(clicks)[k].source)
  {
    EntryCountIsCountOf(BySource(clicks), k);
  }

  /** `clicks.slice(-10).reverse()`: the last ten clicks (or all, if fewer),
      newest first. */
  function Recent(clicks: seq<Click>): (r: seq<Click>)
    ensures |r| == if |clicks| < RecentLimit then |clicks| else RecentLimit
    ensures forall i :: 0 <= i < |r| ==> r[i] == clicks[|clicks| - 1 - i]
  {
    var start := if |clicks| < RecentLimit then 0 else |clicks| - RecentLimit;
    Reverse(clicks[start..])
  }

  /** The panel for a shortcode's click list. */
  function Render(clicks: seq<Click>): (v: View)
    ensures v == NoClicks <==> |clicks| == 0
    ensures v.Details? ==> v.bySource == BySource(clicks) && v.recent == Recent(clicks)
  {
    if |clicks| == 0 then NoClicks else Details(BySource(clicks), Recent(clicks))
  }

  /** The inherited members whose `length` is 0: the methods that take no
      argument. Every other inherited name is a method of length 1 or 2, or,
      for `__proto__`, the prototype object itself, which has no `length`. */
  const ZeroLengthKeys: set<string> := {"valueOf", "toString", "toLocaleString"}

  /** The panel as rendered, or the `TypeError` thrown by calling `reduce`
      on something that is not an array. */
  datatype Panel = Shown(view: View) | Throws

  /** The panel for `code`, fed exactly what `getURLAnalytics` returns. For
      an inherited name that is not a list: its `length` is compared with 0,
      and anything that gets past that check has no `reduce`. */
  function PanelFor(s: Store, code: string): (p: Panel)
    // an own list, or the empty default, is rendered as a list
    ensures !Inherits(s, code) ==> p == Shown(Render(GetURLAnalytics(s, code).list))
    // an inherited member of length 0 looks like an empty list; any other one throws
    ensures Inherits(s, code) ==> (p == Shown(NoClicks) <==> code in ZeroLengthKeys)
    ensures Inherits(s, code) ==> (p == Throws <==> code !in ZeroLengthKeys)
  {
    match GetURLAnalytics(s, code)
    case Clicks(list) => Shown(Render(list))
    case NotAList => if code in ZeroLengthKeys then Shown(NoClicks) else Throws
  }

  /** With no clicks recorded, the panel for a code named `valueOf` reads as
      empty, while one for a code named `constructor` throws. */
  lemma InheritedCodePanels(s: Store)
    requires "valueOf" !in s.analytics && "constructor" !in s.analytics
    ensures PanelFor(s, "valueOf") == Shown(NoClicks)
    ensures PanelFor(s, "constructor") == Throws
  {
    assert Inherits(s, "valueOf") && Inherits(s, "constructor");
    assert "constructor" !in ZeroLengthKeys;
  }
}

=== FILE: form.dfy ===
/** The batch form of `src/components/URLShortener/URLShortenerForm.jsx`:
    the list of up to five input rows, their validation against one snapshot
    of the codes in use, and the submit loop that saves one record per row. */
module Form {
  import opened Base
  import opened Seqs
  import Text
  import opened Validators
  import opened Generator
  import opened Store
  import opened Shortener

  /** The form never holds more rows than this. */
  const MaxInputs := 5

  /** The per-field messages shown under a row. */
  datatype InputErrors = InputErrors(url: Option<string>, validity: Option<string>, shortcode: Option<string>)

  /** One row of the form. `id` is the clock reading when the row was added;
      all three fields are the raw text typed by the user. */
  datatype Input = Input(id: int, url: string, validity: string, shortcode: string, error: Option<InputErrors>)

  datatype Field = UrlField | ValidityField | ShortcodeField

  function BlankInput(id: int): Input {
    Input(id, "", "", "", None)
  }

  /** The text of one field of a row. */
  function FieldValue(x: Input, field: Field): string {
    match field
    case UrlField => x.url
    case ValidityField => x.validity
    case ShortcodeField => x.shortcode
  }

  /** `handleAddInput` at time `now`: a blank row is added only below the cap. */
  function AddInput(inputs: seq<Input>, now: int): (r: seq<Input>)
    ensures |inputs| < MaxInputs ==> r == inputs + [BlankInput(now)]
    ensures |inputs| >= MaxInputs ==> r == inputs
    // the cap is an invariant of the row list
    ensures |inputs| <= MaxInputs ==> |r| <= MaxInputs
  {
    if |inputs| < MaxInputs then inputs + [BlankInput(now)] else inputs
  }

  /** No two rows share an id. */
  predicate DistinctIds(inputs: seq<Input>) {
    forall i, j :: 0 <= i < j < |inputs| ==> inputs[i].id != inputs[j].id
  }

  /** Rows are added with increasing clock readings, so ids stay distinct. */
  lemma AddKeepsIdsDistinct(inputs: seq<Input>, now: int)
    requires DistinctIds(inputs)
    requires forall i :: 0 <= i < |inputs| ==> inputs[i].id < now
    ensures DistinctIds(AddInput(inputs, now))
  {
  }

  /** The filter `handleRemoveInput` applies. */
  function OtherThan(id: int): Input -> bool {
    (x: Input) => x.id != id
  }

  /** `handleRemoveInput(id)`: every row with that id goes, unless only one row is left. */
  function RemoveInput(inputs: seq<Input>, id: int): (r: seq<Input>)
    ensures |inputs| <= 1 ==> r == inputs
    ensures IsSubseq(r, inputs)
    ensures |inputs| > 1 ==> forall i :: 0 <= i < |r| ==> r[i].id != id
    ensures |inputs| > 1 ==> forall i :: 0 <= i < |inputs| && inputs[i].id != id ==> inputs[i] in r
    // every row with another id is kept, as many times as it occurs
    ensures |inputs| > 1 ==> |r| == Count(inputs, OtherThan(id))
    // with distinct ids at most one row goes, so the list never becomes empty
    ensures DistinctIds(inputs) ==> |r| >= |inputs| - 1 && (|inputs| >= 1 ==> |r| >= 1)
  {
    if |inputs| > 1 then
      CountOthers(inputs, id);
      Filter(inputs, OtherThan(id))
    else
      SubseqRefl(inputs);
      inputs
  }

  /** With distinct ids, at most one row carries `id`. */
  lemma {:induction false} CountOthers(inputs: seq<Input>, id: int)
    ensures DistinctIds(inputs) ==> Count(inputs, OtherThan(id)) >= |inputs| - 1
    ensures (forall i :: 0 <= i < |inputs| ==> inputs[i].id != id) ==> Count(inputs, OtherThan(id)) == |inputs|
    decreases |inputs|
  {
    if |inputs| > 0 {
      CountOthers(inputs[1..], id);
      if DistinctIds(inputs) && inputs[0].id == id {
        assert forall i :: 0 <= i < |inputs[1..]| ==> inputs[1..][i].id != id by {
          forall i | 0 <= i < |inputs[1..]|
            ensures inputs[1..][i].id != id
          {
            assert inputs[1..][i] == inputs[i + 1];
          }
        }
      }
    }
  }

  /** Two rows added in the same millisecond share an id, and removing one
      removes both: the list can become empty. */
  lemma SameIdRowsBothRemoved()
    ensures RemoveInput([BlankInput(7), BlankInput(7)], 7) == []
  {
    var two := [BlankInput(7), BlankInput(7)];
    assert !OtherThan(7)(two[0]);
    assert two[1..] == [BlankInput(7)];
    assert Filter(two[1..], OtherThan(7)) == [];
  }

  /** `handleInputChange(id, field, value)`. */
  function ChangeInput(inputs: seq<Input>, id: int, field: Field, value: string): (r: seq<Input>)
    ensures |r| == |inputs|
    // rows with another id are untouched
    ensures forall i :: 0 <= i < |inputs| && inputs[i].id != id ==> r[i] == inputs[i]
    // a row with that id reads back the new value, loses its errors, and keeps its other fields
    ensures forall i :: 0 <= i < |inputs| && inputs[i].id == id ==>
      && r[i].id == id
      && FieldValue(r[i], field) == value
      && r[i].error == None
      && forall f :: f != field ==> FieldValue(r[i], f) == FieldValue(inputs[i], f)
  {
    seq(|inputs|, i requires 0 <= i < |inputs| =>
      var x := inputs[i];
      if x.id != id then x
      else match field
        case UrlField => x.(url := value, error := None)
        case ValidityField => x.(validity := value, error := None)
        case ShortcodeField => x.(shortcode := value, error := None))
  }

  /** The validity text as `validateValidity` sees it: the form never holds
      `null`, so only `''` is blank; `toNumber` is JavaScript's `Number(...)`,
      with `None` for `NaN`. */
  function ValidityOf(text: string, toNumber: string -> Option<real>): ValidityInput {
    if text == "" then Blank
    else match toNumber(text)
      case None => NotANumber
      case Some(n) => Number(n)
  }

  /** A row passes every check `validateInputs` applies to it. */
  predicate InputAccepted(x: Input, existing: seq<string>, protocolOf: ProtocolParser, toNumber: string -> Option<real>) {
    && ValidateURL(Some(x.url), protocolOf).Ok?
    && ValidateValidity(ValidityOf(x.validity, toNumber)).Ok?
    && (x.shortcode == "" || ValidateShortcode(x.shortcode, existing).Ok?)
  }

  /** Every row passes its checks against the snapshot `existing`. */
  predicate AllAccepted(inputs: seq<Input>, existing: seq<string>, protocolOf: ProtocolParser, toNumber: string -> Option<real>) {
    forall i :: 0 <= i < |inputs| ==> InputAccepted(inputs[i], existing, protocolOf, toNumber)
  }

  /** The error message of a failed check, if any. */
  function ErrorOf<T>(r: Result<T>): Option<string> {
    if r.Err? then Some(r.error) else None
  }

  /** One row of `validateInputs`: its errors are recomputed from scratch;
      the shortcode is checked only when one was typed. */
  function CheckInput(x: Input, existing: seq<string>, protocolOf: ProtocolParser, toNumber: string -> Option<real>): Input {
    var errors := InputErrors(
      ErrorOf(ValidateURL(Some(x.url), protocolOf)),
      ErrorOf(ValidateValidity(ValidityOf(x.validity, toNumber))),
      if x.shortcode != "" then ErrorOf(ValidateShortcode(x.shortcode, existing)) else None);
    x.(error := if errors == InputErrors(None, None, None) then None else Some(errors))
  }

  /** The rows with their errors recomputed, and whether all of them passed. */
  datatype Checked = Checked(inputs: seq<Input>, ok: bool)

  /** `validateInputs` against the snapshot `existing` of codes in use. */
  function ValidateInputs(inputs: seq<Input>, existing: seq<string>, protocolOf: ProtocolParser,
                          toNumber: string -> Option<real>): (r: Checked)
    ensures |r.inputs| == |inputs|
    // only the error of each row changes
    ensures forall i :: 0 <= i < |inputs| ==> r.inputs[i] == inputs[i].(error := r.inputs[i].error)
    // a row is left without errors exactly when it passes every check
    ensures forall i :: 0 <= i < |inputs| ==>
      (r.inputs[i].error == None <==> InputAccepted(inputs[i], existing, protocolOf, toNumber))
    // an empty shortcode never produces a shortcode error
    ensures forall i :: 0 <= i < |inputs| && inputs[i].shortcode == "" && r.inputs[i].error.Some? ==>
      r.inputs[i].error.value.shortcode == None
    // each field of a failing row carries its own validator's message, or none when it passes
    ensures forall i :: 0 <= i < |inputs| && r.inputs[i].error.Some? ==>
      && r.inputs[i].error.value.url == ErrorOf(ValidateURL(Some(inputs[i].url), protocolOf))
      && r.inputs[i].error.value.validity == ErrorOf(ValidateValidity(ValidityOf(inputs[i].validity, toNumber)))
      && (inputs[i].shortcode != "" ==>
            r.inputs[i].error.value.shortcode == ErrorOf(ValidateShortcode(inputs[i].shortcode, existing)))
    ensures r.ok <==> forall i :: 0 <= i < |r.inputs| ==> r.inputs[i].error == None
  {
    var checked := seq(|inputs|, i requires 0 <= i < |inputs| => CheckInput(inputs[i], existing, protocolOf, toNumber));
    Checked(checked, forall i :: 0 <= i < |checked| ==> checked[i].error == None)
  }

  /** Every row's validity text passes `validateValidity`, so the loop can
      read its value. */
  predicate ValiditiesAccepted(inputs: seq<Input>, toNumber: string -> Option<real>) {
    forall i :: 0 <= i < |inputs| ==> ValidateValidity(ValidityOf(inputs[i].validity, toNumber)).Ok?
  }

  /** One pass of the loop body, or the error that ends the loop. */
  datatype Row = Row(result: Result<Saved>, next: nat)

  /** One row of the loop of `handleSubmit`: saved under its own code, or
      under one generated against the store as it is at that moment. */
  function SaveRow(s: Store, x: Input, validity: int, env: Env, pos: nat): (r: Row)
    // the row fails exactly when its generation runs out of attempts or its expiry is out of range
    ensures r.result.Err? <==>
      (x.shortcode == "" && GenerateShortcode(AllShortcodes(s), env.draws, pos).result.Err?) ||
      !SaveFits(validity, env.now)
    ensures x.shortcode == "" && GenerateShortcode(AllShortcodes(s), env.draws, pos).result.Err? ==>
      r.result == Err(ExhaustedError)
    ensures r.result.Err? && r.result.error != ExhaustedError ==> r.result.error == InvalidTime
    // a typed code draws nothing; a generation consumes its draws
    ensures x.shortcode != "" ==> r.next == pos
    ensures x.shortcode == "" ==> r.next == GenerateShortcode(AllShortcodes(s), env.draws, pos).next
    ensures r.result.Ok? ==>
      && r.result.value.store.urls == s.urls + [r.result.value.record]
      && r.result.value.store.analytics == s.analytics
      && r.result.value.record.originalUrl == x.url
      && r.result.value.record.validity == validity
      && r.result.value.record.clicks == 0
      && r.result.value.record.createdAt == env.now
      && r.result.value.record.expiresAt == env.now + validity * MillisPerMinute
    ensures r.result.Ok? && x.shortcode != "" ==> r.result.value.record.shortcode == x.shortcode
    // otherwise the code is the one generated against the store as it is now
    ensures r.result.Ok? && x.shortcode == "" ==>
      GenerateShortcode(AllShortcodes(s), env.draws, pos).result == Ok(r.result.value.record.shortcode)
    ensures r.result.Ok? ==>
      r.result.value.record.shortUrl == CreateShortURL(env.origin, r.result.value.record.shortcode)
    // a generated code is not in use at the moment it is drawn
    ensures r.result.Ok? && x.shortcode == "" ==>
      forall j :: 0 <= j < |s.urls| ==> s.urls[j].shortcode != r.result.value.record.shortcode
  {
    if x.shortcode != "" then Row(SaveCode(s, x.url, x.shortcode, validity, env), pos)
    else
      var g := GenerateShortcode(AllShortcodes(s), env.draws, pos);
      if g.result.Err? then Row(Err(g.result.error), g.next)
      else
        assert forall j :: 0 <= j < |s.urls| ==> AllShortcodes(s)[j] == s.urls[j].shortcode;
        Row(SaveCode(s, x.url, g.result.value, validity, env), g.next)
  }

  /** The records saved so far, the cursor of the random source, and the
      error that stopped the loop, if any. */
  datatype Batch = Batch(store: Store, saved: seq<UrlRecord>, next: nat, failure: Option<string>)

  /** The loop of `handleSubmit`: each row is saved in turn. The first row
      that fails stops the loop; nothing saved before is undone. */
  function SaveAll(s: Store, inputs: seq<Input>, env: Env, toNumber: string -> Option<real>, pos: nat): (r: Batch)
    requires ValiditiesAccepted(inputs, toNumber)
    ensures r.store.analytics == s.analytics
    // records are appended in row order and never rolled back
    ensures r.store.urls == s.urls + r.saved
    ensures r.failure.None? ==> |r.saved| == |inputs|
    ensures r.failure.Some? ==>
      && |r.saved| < |inputs|
      && (r.failure.value == ExhaustedError || r.failure.value == InvalidTime)
    decreases |inputs|
  {
    if |inputs| == 0 then Batch(s, [], pos, None)
    else
      var row := SaveRow(s, inputs[0], ValidateValidity(ValidityOf(inputs[0].validity, toNumber)).value, env, pos);
      if row.result.Err? then Batch(s, [], row.next, Some(row.result.error))
      else
        var saved := row.result.value;
        var rest := SaveAll(saved.store, inputs[1..], env, toNumber, row.next);
        Batch(rest.store, [saved.record] + rest.saved, rest.next, rest.failure)
  }

  /** `rec` is what the loop saves for row `x`: the row's URL and validated
      validity, no clicks, created now and expiring that many minutes later,
      and the row's typed code verbatim. */
  predicate SavedFrom(rec: UrlRecord, x: Input, env: Env, toNumber: string -> Option<real>) {
    && ValidateValidity(ValidityOf(x.validity, toNumber)).Ok?
    && rec.originalUrl == x.url
    && rec.validity == ValidateValidity(ValidityOf(x.validity, toNumber)).value
    && rec.clicks == 0
    && rec.createdAt == env.now
    && rec.expiresAt == env.now + rec.validity * MillisPerMinute
    && (x.shortcode != "" ==> rec.shortcode == x.shortcode)
    && rec.shortUrl == CreateShortURL(env.origin, rec.shortcode)
  }

  /** Each saved record is what its row asked for. */
  lemma {:induction false} SaveAllRecords(s: Store, inputs: seq<Input>, env: Env, toNumber: string -> Option<real>, pos: nat)
    requires ValiditiesAccepted(inputs, toNumber)
    ensures var r := SaveAll(s, inputs, env, toNumber, pos);
      forall i :: 0 <= i < |r.saved| ==> SavedFrom(r.saved[i], inputs[i], env, toNumber)
    decreases |inputs|
  {
    if |inputs| > 0 {
      var row := SaveRow(s, inputs[0], ValidateValidity(ValidityOf(inputs[0].validity, toNumber)).value, env, pos);
      if row.result.Ok? {
        var rest := SaveAll(row.result.value.store, inputs[1..], env, toNumber, row.next);
        SaveAllRecords(row.result.value.store, inputs[1..], env, toNumber, row.next);
        var saved := [row.result.value.record] + rest.saved;
        assert SaveAll(s, inputs, env, toNumber, pos).saved == saved;
        forall i | 0 <= i < |saved|
          ensures SavedFrom(saved[i], inputs[i], env, toNumber)
        {
          if i > 0 {
            assert saved[i] == rest.saved[i - 1] && inputs[1..][i - 1] == inputs[i];
          }
        }
      }
    }
  }

  /** In `urls`, the records from `start` on belong to the rows `inputs` in
      order, and each one saved under a generated code carries a code no
      earlier record has. */
  ghost predicate GeneratedFresh(urls: seq<UrlRecord>, start: nat, inputs: seq<Input>) {
    forall i, j :: 0 <= i < |inputs| && start + i < |urls| && inputs[i].shortcode == "" && 0 <= j < start + i ==>
      urls[j].shortcode != urls[start + i].shortcode
  }

  /** The freshness of the first row's code extends that of the later rows. */
  lemma FreshStep(urls: seq<UrlRecord>, start: nat, inputs: seq<Input>)
    requires |inputs| > 0
    requires GeneratedFresh(urls, start + 1, inputs[1..])
    requires inputs[0].shortcode == "" && start < |urls| ==>
      forall j :: 0 <= j < start ==> urls[j].shortcode != urls[start].shortcode
    ensures GeneratedFresh(urls, start, inputs)
  {
    forall i, j | 0 <= i < |inputs| && start + i < |urls| && inputs[i].shortcode == "" && 0 <= j < start + i
      ensures urls[j].shortcode != urls[start + i].shortcode
    {
      if i > 0 {
        assert inputs[1..][i - 1] == inputs[i];
        assert start + 1 + (i - 1) == start + i;
      }
    }
  }

  /** A generated code differs from every code stored before it, including
      those of earlier rows of the same batch. */
  lemma {:induction false} SaveAllFreshCodes(s: Store, inputs: seq<Input>, env: Env, toNumber: string -> Option<real>, pos: nat)
    requires ValiditiesAccepted(inputs, toNumber)
    ensures GeneratedFresh(SaveAll(s, inputs, env, toNumber, pos).store.urls, |s.urls|, inputs)
    decreases |inputs|
  {
    var r := SaveAll(s, inputs, env, toNumber, pos);
    if |inputs| > 0 {
      var row := SaveRow(s, inputs[0], ValidateValidity(ValidityOf(inputs[0].validity, toNumber)).value, env, pos);
      if row.result.Ok? {
        var saved := row.result.value;
        SaveAllFreshCodes(saved.store, inputs[1..], env, toNumber, row.next);
        assert r.store == SaveAll(saved.store, inputs[1..], env, toNumber, row.next).store;
        assert r.store.urls[..|saved.store.urls|] == saved.store.urls;
        FreshStep(r.store.urls, |s.urls|, inputs);
      }
    }
  }

  /** The loop stops only at a row that really fails: saving that row
      against the store as the earlier rows left it, from some cursor,
      gives the loop's error and final cursor. */
  lemma {:induction false} SaveAllStopsAtFailingRow(
    s: Store, inputs: seq<Input>, env: Env, toNumber: string -> Option<real>, pos: nat)
    requires ValiditiesAccepted(inputs, toNumber)
    ensures var r := SaveAll(s, inputs, env, toNumber, pos);
      r.failure.Some? ==>
        exists p: nat :: SaveRow(r.store, inputs[|r.saved|],
          ValidateValidity(ValidityOf(inputs[|r.saved|].validity, toNumber)).value, env, p) == Row(Err(r.failure.value), r.next)
    decreases |inputs|
  {
    var r := SaveAll(s, inputs, env, toNumber, pos);
    if |inputs| > 0 && r.failure.Some? {
      var row := SaveRow(s, inputs[0], ValidateValidity(ValidityOf(inputs[0].validity, toNumber)).value, env, pos);
      if row.result.Err? {
        assert r.store == s && |r.saved| == 0;
        assert SaveRow(r.store, inputs[|r.saved|],
          ValidateValidity(ValidityOf(inputs[|r.saved|].validity, toNumber)).value, env, pos) == Row(Err(r.failure.value), r.next);
      } else {
        var saved := row.result.value;
        var rest := SaveAll(saved.store, inputs[1..], env, toNumber, row.next);
        SaveAllStopsAtFailingRow(saved.store, inputs[1..], env, toNumber, row.next);
        assert r.store == rest.store && |r.saved| == 1 + |rest.saved|;
        assert inputs[|r.saved|] == inputs[1..][|rest.saved|];
        var p: nat :| SaveRow(rest.store, inputs[1..][|rest.saved|],
          ValidateValidity(ValidityOf(inputs[1..][|rest.saved|].validity, toNumber)).value, env, p) == Row(Err(rest.failure.value), rest.next);
        assert SaveRow(r.store, inputs[|r.saved|],
          ValidateValidity(ValidityOf(inputs[|r.saved|].validity, toNumber)).value, env, p) == Row(Err(r.failure.value), r.next);
      }
    }
  }

  /** The notification the form shows after a submit. */
  datatype Notice = NoNotice | FixErrors | Shortened(count: nat) | ShortenFailed

  /** The form's state: its rows, the results on display, and the store. */
  datatype FormState = FormState(inputs: seq<Input>, results: seq<UrlRecord>, store: Store, notice: Notice)

  datatype Submitted = Submitted(state: FormState, next: nat)

  /** `handleSubmit` with the random source at `pos`. */
  function HandleSubmit(f: FormState, env: Env, toNumber: string -> Option<real>, pos: nat): (r: Submitted)
    // a row that fails validation blocks the whole batch: nothing is saved or drawn
    ensures r.state.notice == FixErrors <==>
      exists i :: 0 <= i < |f.inputs| && !InputAccepted(f.inputs[i], AllShortcodes(f.store), env.protocolOf, toNumber)
    ensures r.state.notice == FixErrors ==> r.state.store == f.store && r.next == pos
    // every typed code was checked against the one snapshot taken before the batch
    ensures r.state.notice != FixErrors <==> AllAccepted(f.inputs, AllShortcodes(f.store), env.protocolOf, toNumber)
    // a valid batch is either shortened in full or stopped by a failing row; the store is the loop's
    ensures r.state.notice != FixErrors ==> r.state.notice == Shortened(|f.inputs|) || r.state.notice == ShortenFailed
    ensures AllAccepted(f.inputs, AllShortcodes(f.store), env.protocolOf, toNumber) ==>
      var b := SaveAll(f.store, f.inputs, env, toNumber, pos);
      && r.state.store == b.store && r.next == b.next
      && (r.state.notice == ShortenFailed <==> b.failure.Some?)
    // on success the store grows by one record per row, shown in row order, and the form is reset
    ensures r.state.notice.Shortened? ==>
      && r.state.store.urls == f.store.urls + r.state.results
      && |r.state.results| == |f.inputs| == r.state.notice.count
      && (forall i :: 0 <= i < |f.inputs| ==> r.state.results[i].originalUrl == f.inputs[i].url)
      && r.state.inputs == [BlankInput(env.now)]
    // on a failing row the records saved so far stay saved
    ensures r.state.notice == ShortenFailed ==>
      && f.store.urls <= r.state.store.urls
      && |r.state.store.urls| < |f.store.urls| + |f.inputs|
      && r.state.results == f.results
    // short of success, the rows stay as typed with their errors recomputed, and the shown results stay
    ensures !r.state.notice.Shortened? ==>
      && r.state.inputs == ValidateInputs(f.inputs, AllShortcodes(f.store), env.protocolOf, toNumber).inputs
      && r.state.results == f.results
    ensures r.state.store.analytics == f.store.analytics
  {
    var checked := ValidateInputs(f.inputs, AllShortcodes(f.store), env.protocolOf, toNumber);
    if !checked.ok then
      Submitted(f.(inputs := checked.inputs, notice := FixErrors), pos)
    else
      var b := SaveAll(f.store, f.inputs, env, toNumber, pos);
      SaveAllRecords(f.store, f.inputs, env, toNumber, pos);
      if b.failure.None? then
        Submitted(FormState([BlankInput(env.now)], b.saved, b.store, Shortened(|b.saved|)), b.next)
      else
        Submitted(f.(inputs := checked.inputs, store := b.store, notice := ShortenFailed), b.next)
  }

  /** Two rows with the same new custom code both pass validation and both
      get saved: batch shortening does not keep shortcodes unique. */
  lemma BatchAllowsDuplicateCodes()
    ensures var env := Env(0, "https://s.example", u => Some("https:"), i => "drawn");
            var rows := [Input(1, "https://a.example", "", "abc", None), Input(2, "https://b.example", "", "abc", None)];
            var r := HandleSubmit(FormState(rows, [], EmptyStore, NoNotice), env, t => None, 0);
            r.state.notice == Shortened(2) && !UniqueShortcodes(r.state.store)
  {
    var env := Env(0, "https://s.example", u => Some("https:"), i => "drawn");
    var rows := [Input(1, "https://a.example", "", "abc", None), Input(2, "https://b.example", "", "abc", None)];
    var toNumber: string -> Option<real> := t => None;
    assert Text.AllAlnum("abc");
    assert InputAccepted(rows[0], [], env.protocolOf, toNumber);
    assert InputAccepted(rows[1], [], env.protocolOf, toNumber);
    assert SaveFits(DefaultValidity, env.now);
    var b := SaveAll(EmptyStore, rows, env, toNumber, 0);
    SaveAllRecords(EmptyStore, rows, env, toNumber, 0);
    assert b.saved[0].shortcode == "abc" == b.saved[1].shortcode;
    var r := HandleSubmit(FormState(rows, [], EmptyStore, NoNotice), env, toNumber, 0);
    assert r.state.notice == Shortened(2);
    assert r.state.store.urls[0].shortcode == "abc" == r.state.store.urls[1].shortcode;
  }
}

=== FILE: generator.dfy ===
/** Shortcode generation and short-link composition of
    `src/utils/urlGenerator.js`. The random source is a stream of draws
    (`draws(i)` is the `i`-th string `nanoid(8)` would produce) read from a
    cursor; each generation reports where the next one starts. */
module Generator {
  import opened Base

  /** The cap on attempts. The counter is checked after the draw and before
      the collision test, so only the first `MaxAttempts - 1` draws are ever
      tested. */
  const MaxAttempts := 10
  const ExhaustedError := "Unable to generate unique shortcode"

  /** An endless stream of random candidate codes. */
  type Draws = nat -> string

  /** The outcome of one generation and the cursor after the draws it consumed. */
  datatype Generation = Generation(result: Result<string>, next: nat)

  /** Iteration `attempts` of the do/while loop: take draw number `attempts`
      (counting from 1 at `start`), give up if the cap is reached, otherwise
      accept the draw unless it collides. */
  function Attempt(existing: seq<string>, draws: Draws, start: nat, attempts: nat): (g: Generation)
    requires 1 <= attempts <= MaxAttempts
    ensures start + attempts <= g.next <= start + MaxAttempts
    ensures g.result.Ok? ==>
      && g.next < start + MaxAttempts
      && g.result.value == draws(g.next - 1)
      && g.result.value !in existing
      && forall i :: start + attempts - 1 <= i < g.next - 1 ==> draws(i) in existing
    ensures g.result.Err? ==> g.result == Err(ExhaustedError) && g.next == start + MaxAttempts
    ensures g.result.Err? <==>
      forall i :: start + attempts - 1 <= i < start + MaxAttempts - 1 ==> draws(i) in existing
    decreases MaxAttempts - attempts
  {
    var code := draws(start + attempts - 1);
    if attempts >= MaxAttempts then Generation(Err(ExhaustedError), start + attempts)
    else if code in existing then Attempt(existing, draws, start, attempts + 1)
    else Generation(Ok(code), start + attempts)
  }

  /** `generateShortcode(existing)` reading draws from position `start`. */
  function GenerateShortcode(existing: seq<string>, draws: Draws, start: nat): (g: Generation)
    // never returns a code already in use
    ensures g.result.Ok? ==> g.result.value !in existing
    // returns the first draw that does not collide, which is one of draws 1 to 9
    ensures g.result.Ok? ==>
      && start < g.next < start + MaxAttempts
      && g.result.value == draws(g.next - 1)
      && forall i :: start <= i < g.next - 1 ==> draws(i) in existing
    // fails exactly when the first nine draws all collide; the tenth is drawn but never tested
    ensures g.result.Err? <==> forall i :: start <= i < start + MaxAttempts - 1 ==> draws(i) in existing
    ensures g.result.Err? ==> g.result == Err(ExhaustedError) && g.next == start + MaxAttempts
    // with nothing in use the first draw is taken after one attempt
    ensures existing == [] ==> g == Generation(Ok(draws(start)), start + 1)
  {
    Attempt(existing, draws, start, 1)
  }

  /** The outcome depends on nothing but the first nine draws: in particular
      a fresh tenth draw cannot rescue a generation whose first nine collide. */
  lemma {:induction false} TenthDrawIgnored(existing: seq<string>, d1: Draws, d2: Draws, start: nat, attempts: nat)
    requires 1 <= attempts <= MaxAttempts
    requires forall i :: start <= i < start + MaxAttempts - 1 ==> d1(i) == d2(i)
    ensures Attempt(existing, d1, start, attempts) == Attempt(existing, d2, start, attempts)
    decreases MaxAttempts - attempts
  {
    if attempts < MaxAttempts {
      TenthDrawIgnored(existing, d1, d2, start, attempts + 1);
    }
  }

  /** `createShortURL`: the page origin, a slash, then the code. */
  function CreateShortURL(origin: string, code: string): (r: string)
    ensures |r| == |origin| + 1 + |code|
    ensures r[..|origin|] == origin && r[|origin|] == '/' && r[|origin| + 1..] == code
  {
    origin + "/" + code
  }

  /** Under one origin, distinct codes give distinct short links. */
  lemma ShortURLInjective(origin: string, c1: string, c2: string)
    requires CreateShortURL(origin, c1) == CreateShortURL(origin, c2)
    ensures c1 == c2
  {
    assert c1 == CreateShortURL(origin, c1)[|origin| + 1..];
  }
}

=== FILE: redirect.dfy ===
/** The decision `handleRedirect` in `src/components/URLRedirect.jsx` makes
    for a visited shortcode: not found, expired, or record the click and
    send the visitor to the original URL. */
module Redirect {
  import opened Base
  import opened Seqs
  import opened Store
  import opened Analytics
  import Validators

  datatype Outcome = NotFound | Expired | Redirecting(target: string)

  /** The store after the visit and the page's final state. */
  datatype Resolution = Resolution(store: Store, outcome: Outcome)

  /** What the browser supplies for one visit: the instant `trackClick` reads
      the clock, the geolocation reply, and `document.referrer`. */
  datatype Visit = Visit(clickTime: int, geo: GeoResponse, referrer: string)

  /** The click the store receives for `visit`. */
  function VisitClick(visit: Visit, hostOf: string -> Option<string>): ClickData {
    TrackClick(visit.clickTime, visit.geo, visit.referrer, hostOf)
  }

  /** `handleRedirect` for `code`, checking expiry at `now`. */
  function HandleRedirect(s: Store, code: string, now: int, visit: Visit, hostOf: string -> Option<string>): (r: Resolution)
    // an unknown code is not found, and nothing is recorded
    ensures !IsShortcodeExists(s, code) ==> r == Resolution(s, NotFound)
    // only the first record carrying the code is consulted
    ensures r.outcome == Expired <==>
      GetURLByShortcode(s, code).Some? && IsExpiredAt(GetURLByShortcode(s, code).value, now)
    ensures r.outcome.Redirecting? <==>
      GetURLByShortcode(s, code).Some? && IsLive(GetURLByShortcode(s, code).value, now)
    // no click is recorded unless the visitor is redirected
    ensures !r.outcome.Redirecting? ==> r.store == s
    // a redirect goes to the record's URL after `recordClick`, and nothing else changes the store
    ensures r.outcome.Redirecting? ==>
      && r.outcome.target == GetURLByShortcode(s, code).value.originalUrl
      && r.store == RecordClick(s, code, VisitClick(visit, hostOf), visit.clickTime)
    // that is exactly one click for the code and one more on the record ...
    ensures r.outcome.Redirecting? && !Inherits(s, code) ==>
      && GetURLAnalytics(r.store, code) ==
           Clicks(GetURLAnalytics(s, code).list + [MergeClick(VisitClick(visit, hostOf), visit.clickTime)])
      && |r.store.urls| == |s.urls|
      && forall j :: 0 <= j < |s.urls| ==>
           r.store.urls[j].clicks == s.urls[j].clicks + (if FirstMatch(s.urls, code) == Some(j) then 1 else 0)
    // ... unless the code names an inherited object key: the visitor is redirected and nothing is recorded
    ensures r.outcome.Redirecting? && Inherits(s, code) ==> r.store == s
  {
    match GetURLByShortcode(s, code)
    case None => Resolution(s, NotFound)
    case Some(u) =>
      if IsExpiredAt(u, now) then Resolution(s, Expired)
      else Resolution(RecordClick(s, code, VisitClick(visit, hostOf), visit.clickTime), Redirecting(u.originalUrl))
  }

  /** The sweep and the redirect agree on expiry: a record the sweep keeps
      at `now` is not expired at `now`, and one it removes is. */
  lemma SweepAgreesWithRedirect(s: Store, now: int, u: UrlRecord)
    requires u in s.urls
    ensures u in RemoveExpiredURLs(s, now).urls <==> !IsExpiredAt(u, now)
  {
    var i :| 0 <= i < |s.urls| && s.urls[i] == u;
    if u in RemoveExpiredURLs(s, now).urls {
      var k :| 0 <= k < |RemoveExpiredURLs(s, now).urls| && RemoveExpiredURLs(s, now).urls[k] == u;
    }
  }

  /** Right after a sweep at `now`, no visit at `now` can end as expired. */
  lemma SweepThenRedirectNeverExpired(s: Store, code: string, now: int, visit: Visit, hostOf: string -> Option<string>)
    ensures HandleRedirect(RemoveExpiredURLs(s, now), code, now, visit, hostOf).outcome != Expired
  {
    var swept := RemoveExpiredURLs(s, now);
    match FirstMatch(swept.urls, code)
    case None =>
    case Some(i) =>
      assert IsLive(swept.urls[i], now);
  }

  /** A custom code such as `valueOf` passes validation, yet the analytics
      object already inherits a `valueOf` property: visiting it redirects
      without recording the click, and its click list reads as no list. */
  lemma InheritedCodeRedirectsUnrecorded(visit: Visit, hostOf: string -> Option<string>)
    ensures Validators.ValidateShortcode("valueOf", []).Ok?
    ensures var u := UrlRecord(0, "https://a.example", "valueOf", 30, "https://s.example/valueOf", 0, 1800000, 0);
            var s := Store([u], map[]);
            && HandleRedirect(s, "valueOf", 0, visit, hostOf) == Resolution(s, Redirecting("https://a.example"))
            && GetURLAnalytics(s, "valueOf") == NotAList
  {
    assert Text.AllAlnum("valueOf");
    var u := UrlRecord(0, "https://a.example", "valueOf", 30, "https://s.example/valueOf", 0, 1800000, 0);
    var s := Store([u], map[]);
    assert FirstMatch(s.urls, "valueOf") == Some(0);
    assert "valueOf" in InheritedKeys;
  }
}

=== FILE: seqs.dfy ===
/** Sequence vocabulary used by the store and the statistics views:
    `Array.prototype.filter`, order-preserving subsequences, counting and
    reversal. */
module Seqs {

  /** `a` is obtained from `b` by deleting elements, without reordering. */
  ghost predicate IsSubseq<T>(a: seq<T>, b: seq<T>)
    decreases |b|
  {
    if |a| == 0 then true
    else if |b| == 0 then false
    else (a[0] == b[0] && IsSubseq(a[1..], b[1..])) || IsSubseq(a, b[1..])
  }

  /** Number of elements of `s` that satisfy `p`. */
  function Count<T>(s: seq<T>, p: T -> bool): (n: nat)
    ensures n <= |s|
  {
    if |s| == 0 then 0 else (if p(s[0]) then 1 else 0) + Count(s[1..], p)
  }

  /** `s.filter(p)`: the elements satisfying `p`, in their original order. */
  function Filter<T>(s: seq<T>, p: T -> bool): (r: seq<T>)
    ensures |r| == Count(s, p)
    ensures forall i :: 0 <= i < |r| ==> p(r[i])
    ensures forall i :: 0 <= i < |r| ==> r[i] in s
    ensures forall i :: 0 <= i < |s| && p(s[i]) ==> s[i] in r
    ensures IsSubseq(r, s)
  {
    if |s| == 0 then []
    else if p(s[0]) then [s[0]] + Filter(s[1..], p)
    else Filter(s[1..], p)
  }

  /** Every sequence is a subsequence of itself. */
  lemma {:induction false} SubseqRefl<T>(s: seq<T>)
    ensures IsSubseq(s, s)
    decreases |s|
  {
    if |s| > 0 {
      SubseqRefl(s[1..]);
    }
  }

  /** A filter that rejects nothing returns its input unchanged; in
      particular filtering twice by the same predicate is filtering once. */
  lemma {:induction false} FilterKeepsAll<T>(s: seq<T>, p: T -> bool)
    requires forall i :: 0 <= i < |s| ==> p(s[i])
    ensures Filter(s, p) == s
    decreases |s|
  {
    if |s| > 0 {
      FilterKeepsAll(s[1..], p);
    }
  }

  /** Filters that agree on every element of `s` keep the same elements. */
  lemma {:induction false} FilterEquiv<T>(s: seq<T>, p: T -> bool, q: T -> bool)
    requires forall i :: 0 <= i < |s| ==> p(s[i]) == q(s[i])
    ensures Filter(s, p) == Filter(s, q)
    decreases |s|
  {
    if |s| > 0 {
      FilterEquiv(s[1..], p, q);
    }
  }

  /** Filtering by `p` and then by `q` is filtering once by their conjunction `pq`. */
  lemma {:induction false} FilterFilter<T>(s: seq<T>, p: T -> bool, q: T -> bool, pq: T -> bool)
    requires forall i :: 0 <= i < |s| ==> pq(s[i]) == (p(s[i]) && q(s[i]))
    ensures Filter(Filter(s, p), q) == Filter(s, pq)
    decreases |s|
  {
    if |s| > 0 {
      FilterFilter(s[1..], p, q, pq);
      if p(s[0]) {
        assert ([s[0]] + Filter(s[1..], p))[1..] == Filter(s[1..], p);
      }
    }
  }

  /** No element satisfies `p`: the count is zero. */
  lemma {:induction false} CountNone<T>(s: seq<T>, p: T -> bool)
    requires forall i :: 0 <= i < |s| ==> !p(s[i])
    ensures Count(s, p) == 0
    decreases |s|
  {
    if |s| > 0 {
      CountNone(s[1..], p);
    }
  }

  /** `s.slice().reverse()`: element `i` of the result is the `i`-th from the end. */
  function Reverse<T>(s: seq<T>): (r: seq<T>)
    ensures |r| == |s|
    ensures forall i :: 0 <= i < |s| ==> r[i] == s[|s| - 1 - i]
  {
    if |s| == 0 then [] else Reverse(s[1..]) + [s[0]]
  }
}

=== FILE: shortener.dfy ===
/** `shortenURL` of `src/hooks/useURLShortener.js`: validate the URL, then
    the validity period, then the custom shortcode (or generate one), and
    save the record. The first failure aborts the call with its message. */
module Shortener {
  import opened Base
  import opened Validators
  import opened Generator
  import opened Store

  /** The caller's `urlData`; an empty `shortcode` means "generate one". */
  datatype Request = Request(url: Option<string>, validity: ValidityInput, shortcode: string)

  /** What the browser supplies: the clock, the page origin, the URL parser
      and the random source. */
  datatype Env = Env(now: int, origin: string, protocolOf: ProtocolParser, draws: Draws)

  /** The store afterwards, the random-source cursor afterwards, and the
      saved record or the error thrown. */
  datatype Step = Step(store: Store, next: nat, result: Result<UrlRecord>)

  /** Builds the record data for `code` and saves it. */
  function SaveCode(s: Store, url: string, code: string, validity: int, env: Env): Result<Saved> {
    SaveURL(s, UrlData(url, code, validity, CreateShortURL(env.origin, code)), env.now)
  }

  /** Every check `shortenURL` makes before saving passes: the URL, the
      validity, and the typed code or, when none was typed, the generation. */
  predicate ChecksPass(s: Store, req: Request, env: Env, pos: nat) {
    && ValidateURL(req.url, env.protocolOf).Ok?
    && ValidateValidity(req.validity).Ok?
    && if req.shortcode != "" then ValidateShortcode(req.shortcode, AllShortcodes(s)).Ok?
       else GenerateShortcode(AllShortcodes(s), env.draws, pos).result.Ok?
  }

  /** `shortenURL(request)` on store `s` with the random source at `pos`. */
  function ShortenURL(s: Store, req: Request, env: Env, pos: nat): (r: Step)
    // the checks run in the order URL, validity, shortcode; the first failure is thrown
    // and nothing is saved or drawn
    ensures ValidateURL(req.url, env.protocolOf).Err? ==>
      r == Step(s, pos, Err(ValidateURL(req.url, env.protocolOf).error))
    ensures ValidateURL(req.url, env.protocolOf).Ok? && ValidateValidity(req.validity).Err? ==>
      r == Step(s, pos, Err(ValidateValidity(req.validity).error))
    ensures (ValidateURL(req.url, env.protocolOf).Ok? && ValidateValidity(req.validity).Ok? &&
             req.shortcode != "" && ValidateShortcode(req.shortcode, AllShortcodes(s)).Err?) ==>
      r == Step(s, pos, Err(ValidateShortcode(req.shortcode, AllShortcodes(s)).error))
    // without a typed code, a generation that runs out of attempts is thrown after its draws
    ensures (ValidateURL(req.url, env.protocolOf).Ok? && ValidateValidity(req.validity).Ok? &&
             req.shortcode == "" && GenerateShortcode(AllShortcodes(s), env.draws, pos).result.Err?) ==>
      r == Step(s, GenerateShortcode(AllShortcodes(s), env.draws, pos).next, Err(ExhaustedError))
    // once every check passes, the save itself fails only on an out-of-range expiry
    ensures ChecksPass(s, req, env, pos) && !SaveFits(ValidateValidity(req.validity).value, env.now) ==>
      && r.store == s && r.result == Err(InvalidTime)
      && r.next == (if req.shortcode != "" then pos else GenerateShortcode(AllShortcodes(s), env.draws, pos).next)
    // a request is saved exactly when every check passes and its dates fit
    ensures r.result.Ok? <==>
      ChecksPass(s, req, env, pos) && SaveFits(ValidateValidity(req.validity).value, env.now)
    // any failure leaves the store as it was
    ensures r.result.Err? ==> r.store == s
    // a success appends exactly one record, under a code not in use before
    ensures r.result.Ok? ==>
      && ValidateURL(req.url, env.protocolOf).Ok?
      && r.store.urls == s.urls + [r.result.value]
      && r.store.analytics == s.analytics
      && r.result.value.shortcode !in AllShortcodes(s)
      && r.result.value.originalUrl == req.url.value
      && r.result.value.shortUrl == CreateShortURL(env.origin, r.result.value.shortcode)
      && r.result.value.clicks == 0
      && r.result.value.createdAt == env.now
      && r.result.value.expiresAt == env.now + r.result.value.validity * MillisPerMinute
    // the stored validity is the validated one, 30 minutes when left blank
    ensures r.result.Ok? ==>
      ValidateValidity(req.validity).Ok? && r.result.value.validity == ValidateValidity(req.validity).value
    ensures r.result.Ok? && req.validity == Blank ==> r.result.value.validity == DefaultValidity
    // a custom code is used verbatim; otherwise the generated one is, drawn against the current codes
    ensures r.result.Ok? && req.shortcode != "" ==> r.result.value.shortcode == req.shortcode && r.next == pos
    ensures req.shortcode == "" && r.result.Ok? ==>
      var g := GenerateShortcode(AllShortcodes(s), env.draws, pos);
      g.result == Ok(r.result.value.shortcode) && r.next == g.next
  {
    var urlCheck := ValidateURL(req.url, env.protocolOf);
    var validityCheck := ValidateValidity(req.validity);
    if urlCheck.Err? then Step(s, pos, Err(urlCheck.error))
    else if validityCheck.Err? then Step(s, pos, Err(validityCheck.error))
    else if req.shortcode != "" then
      var codeCheck := ValidateShortcode(req.shortcode, AllShortcodes(s));
      if codeCheck.Err? then Step(s, pos, Err(codeCheck.error))
      else Commit(s, SaveCode(s, req.url.value, req.shortcode, validityCheck.value, env), pos)
    else
      var g := GenerateShortcode(AllShortcodes(s), env.draws, pos);
      if g.result.Err? then Step(s, g.next, Err(g.result.error))
      else Commit(s, SaveCode(s, req.url.value, g.result.value, validityCheck.value, env), g.next)
  }

  /** The step a save completes: the new store and record, or the thrown
      error with the store as it was. */
  function Commit(s: Store, saved: Result<Saved>, next: nat): (r: Step)
    ensures saved.Ok? ==> r == Step(saved.value.store, next, Ok(saved.value.record))
    ensures saved.Err? ==> r == Step(s, next, Err(saved.error))
  {
    match saved
    case Ok(v) => Step(v.store, next, Ok(v.record))
    case Err(e) => Step(s, next, Err(e))
  }

  /** Single-URL shortening keeps shortcodes unique. */
  lemma ShortenPreservesUnique(s: Store, req: Request, env: Env, pos: nat)
    requires UniqueShortcodes(s)
    ensures UniqueShortcodes(ShortenURL(s, req, env, pos).store)
  {
    var r := ShortenURL(s, req, env, pos);
    if r.result.Ok? {
      var code := r.result.value.shortcode;
      assert forall i :: 0 <= i < |s.urls| ==> s.urls[i].shortcode != code by {
        forall i | 0 <= i < |s.urls|
          ensures s.urls[i].shortcode != code
        {
          assert AllShortcodes(s)[i] == s.urls[i].shortcode;
        }
      }
    }
  }
}

=== FILE: statistics.dfy ===
/** The pure aggregations of `src/components/Statistics/StatisticsPage.jsx`:
    the search and status filter over the URL list and the four summary
    counts. */
module Statistics {
  import opened Seqs
  import opened Text
  import opened Store

  /** The search matches a record when the lower-cased term occurs in its
      lower-cased URL or code. */
  predicate MatchesSearch(u: UrlRecord, term: string) {
    Contains(ToLower(u.originalUrl), ToLower(term)) || Contains(ToLower(u.shortcode), ToLower(term))
  }

  function SearchFor(term: string): UrlRecord -> bool {
    u => MatchesSearch(u, term)
  }

  /** The expired-status filter as a first-class predicate. */
  function ExpiredAt(now: int): UrlRecord -> bool {
    (u: UrlRecord) => IsExpiredAt(u, now)
  }

  /** Whether the status chip `status` shows the record at `now`: `"active"`
      and `"expired"` split on the expiry instant, anything else shows all. */
  predicate StatusShows(status: string, u: UrlRecord, now: int) {
    if status == "active" then IsLive(u, now)
    else if status == "expired" then IsExpiredAt(u, now)
    else true
  }

  /** A record `filterURLs` shows: it matches the search, when there is one,
      and the status chip. */
  predicate Shown(u: UrlRecord, term: string, status: string, now: int) {
    (term == "" || MatchesSearch(u, term)) && StatusShows(status, u, now)
  }

  function ShownBy(term: string, status: string, now: int): UrlRecord -> bool {
    (u: UrlRecord) => Shown(u, term, status, now)
  }

  /** `filterURLs` for search term `term` and status `status`, with the one
      clock reading `now` the function takes before its status pass. */
  function FilterURLs(urls: seq<UrlRecord>, term: string, status: string, now: int): (r: seq<UrlRecord>)
    // the search pass followed by the status pass is one filter by both conditions
    ensures r == Filter(urls, ShownBy(term, status, now))
    // so it is an order-preserving subsequence of the list ...
    ensures IsSubseq(r, urls)
    // ... holding only records that pass both filters ...
    ensures forall i :: 0 <= i < |r| ==> r[i] in urls && Shown(r[i], term, status, now)
    // ... and every record that does, as many times as it occurs
    ensures forall i :: 0 <= i < |urls| && Shown(urls[i], term, status, now) ==> urls[i] in r
    ensures |r| == Count(urls, ShownBy(term, status, now))
    // no term and no status chip: the whole list
    ensures term == "" && status != "active" && status != "expired" ==> r == urls
  {
    var shown := ShownBy(term, status, now);
    if term == "" then
      if status == "active" then
        FilterEquiv(urls, LiveAt(now), shown);
        Filter(urls, LiveAt(now))
      else if status == "expired" then
        FilterEquiv(urls, ExpiredAt(now), shown);
        Filter(urls, ExpiredAt(now))
      else
        FilterKeepsAll(urls, shown);
        urls
    else
      var searched := Filter(urls, SearchFor(term));
      if status == "active" then
        FilterFilter(urls, SearchFor(term), LiveAt(now), shown);
        Filter(searched, LiveAt(now))
      else if status == "expired" then
        FilterFilter(urls, SearchFor(term), ExpiredAt(now), shown);
        Filter(searched, ExpiredAt(now))
      else
        FilterEquiv(urls, SearchFor(term), shown);
        searched
  }

  /** `url.clicks || 0` summed over the list. */
  function TotalClicks(urls: seq<UrlRecord>): nat {
    if |urls| == 0 then 0 else urls[0].clicks + TotalClicks(urls[1..])
  }

  /** `n` clock readings that all return `now`. */
  function Readings(n: nat, now: int): (c: seq<int>)
    ensures |c| == n && forall i :: 0 <= i < n ==> c[i] == now
  {
    seq(n, _ => now)
  }

  /** The records live at the reading taken as each one is tested. */
  function LiveAlong(urls: seq<UrlRecord>, clock: seq<int>): (n: nat)
    requires |clock| == |urls|
    ensures n <= |urls|
    decreases |urls|
  {
    if |urls| == 0 then 0
    else (if IsLive(urls[0], clock[0]) then 1 else 0) + LiveAlong(urls[1..], clock[1..])
  }

  /** The records expired at the reading taken as each one is tested. */
  function ExpiredAlong(urls: seq<UrlRecord>, clock: seq<int>): (n: nat)
    requires |clock| == |urls|
    ensures n <= |urls|
    decreases |urls|
  {
    if |urls| == 0 then 0
    else (if IsExpiredAt(urls[0], clock[0]) then 1 else 0) + ExpiredAlong(urls[1..], clock[1..])
  }

  /** The four counters at the top of the page. */
  datatype Stats = Stats(total: nat, active: nat, expired: nat, totalClicks: nat)

  /** The `stats` object. Each `filter` callback builds its own `new Date()`,
      so the clock is read once per record and per count: record `i` is
      tested against `activeClock[i]` for the active count and, in the later
      pass, against `expiredClock[i]` for the expired count. */
  function ComputeStats(urls: seq<UrlRecord>, activeClock: seq<int>, expiredClock: seq<int>): (st: Stats)
    requires |activeClock| == |urls| && |expiredClock| == |urls|
    ensures st.total == |urls|
    ensures st.active == LiveAlong(urls, activeClock) && st.expired == ExpiredAlong(urls, expiredClock)
    // tested at the same instant, a record is counted exactly once; tested again later,
    // a record that expires in between is counted twice
    ensures (forall i :: 0 <= i < |urls| ==> activeClock[i] == expiredClock[i]) ==> st.active + st.expired == st.total
    ensures (forall i :: 0 <= i < |urls| ==> activeClock[i] <= expiredClock[i]) ==> st.active + st.expired >= st.total
    ensures st.totalClicks == TotalClicks(urls)
  {
    StatusCountsCover(urls, activeClock, expiredClock);
    Stats(|urls|, LiveAlong(urls, activeClock), ExpiredAlong(urls, expiredClock), TotalClicks(urls))
  }

  /** Active and expired counts together cover the list. */
  lemma {:induction false} StatusCountsCover(urls: seq<UrlRecord>, activeClock: seq<int>, expiredClock: seq<int>)
    requires |activeClock| == |urls| && |expiredClock| == |urls|
    ensures (forall i :: 0 <= i < |urls| ==> activeClock[i] == expiredClock[i]) ==>
      LiveAlong(urls, activeClock) + ExpiredAlong(urls, expiredClock) == |urls|
    ensures (forall i :: 0 <= i < |urls| ==> activeClock[i] <= expiredClock[i]) ==>
      LiveAlong(urls, activeClock) + ExpiredAlong(urls, expiredClock) >= |urls|
    decreases |urls|
  {
    if |urls| > 0 {
      assert forall k :: 0 <= k < |urls| - 1 ==>
        activeClock[1..][k] == activeClock[k + 1] && expiredClock[1..][k] == expiredClock[k + 1];
      StatusCountsCover(urls[1..], activeClock[1..], expiredClock[1..]);
    }
  }

  /** With every reading at the same instant the counts are those of the
      sweep's and the redirect's tests at that instant. */
  lemma {:induction false} OneInstantCounts(urls: seq<UrlRecord>, now: int)
    ensures LiveAlong(urls, Readings(|urls|, now)) == Count(urls, LiveAt(now))
    ensures ExpiredAlong(urls, Readings(|urls|, now)) == Count(urls, ExpiredAt(now))
    decreases |urls|
  {
    if |urls| > 0 {
      assert Readings(|urls|, now)[1..] == Readings(|urls| - 1, now);
      OneInstantCounts(urls[1..], now);
    }
  }

  /** Two records expiring at 5 ms, tested at readings 4 and 5: the page
      shows one active link, a count no single instant produces. */
  lemma PerRecordReadingsExample()
    ensures var u := UrlRecord(0, "https://a.example", "abc", 1, "https://s.example/abc", 0, 5, 0);
            && LiveAlong([u, u], [4, 5]) == 1
            && forall now :: Count([u, u], LiveAt(now)) != 1
  {
    var u := UrlRecord(0, "https://a.example", "abc", 1, "https://s.example/abc", 0, 5, 0);
    assert [u, u][1..] == [u];
    assert [4, 5][1..] == [5];
    forall now
      ensures Count([u, u], LiveAt(now)) != 1
    {
      assert Count([u], LiveAt(now)) == if IsLive(u, now) then 1 else 0;
    }
  }

  /** Raising one record's count by one raises the total by one. */
  lemma {:induction false} TotalClicksBump(a: seq<UrlRecord>, b: seq<UrlRecord>, k: int)
    requires |a| == |b|
    requires forall j :: 0 <= j < |a| ==> b[j].clicks == a[j].clicks + (if j == k then 1 else 0)
    ensures TotalClicks(b) == TotalClicks(a) + (if 0 <= k < |a| then 1 else 0)
    decreases |a|
  {
    if |a| > 0 {
      TotalClicksBump(a[1..], b[1..], k - 1);
    }
  }

  /** A recorded click raises the page's total by one exactly when a record
      carries the code and the code is not an inherited object key; an
      orphan click leaves it unchanged. */
  lemma RecordClickTotal(s: Store, code: string, data: ClickData, now: int)
    ensures TotalClicks(RecordClick(s, code, data, now).urls) ==
      TotalClicks(s.urls) + (if IsShortcodeExists(s, code) && !Inherits(s, code) then 1 else 0)
  {
    var r := RecordClick(s, code, data, now);
    match FirstMatch(s.urls, code)
    case None =>
      TotalClicksBump(s.urls, r.urls, -1);
    case Some(i) =>
      TotalClicksBump(s.urls, r.urls, if Inherits(s, code) then -1 else i);
  }

  /** Right after a sweep, the page counts nothing as expired when every
      reading is at the sweep's instant. */
  lemma SweepLeavesNothingExpired(s: Store, now: int)
    ensures var kept := RemoveExpiredURLs(s, now).urls;
      ComputeStats(kept, Readings(|kept|, now), Readings(|kept|, now)).expired == 0
    ensures var kept := RemoveExpiredURLs(s, now).urls;
      ComputeStats(kept, Readings(|kept|, now), Readings(|kept|, now)).active == |kept|
  {
    var kept := RemoveExpiredURLs(s, now).urls;
    OneInstantCounts(kept, now);
    CountNone(kept, ExpiredAt(now));
    FilterKeepsAll(kept, LiveAt(now));
  }
}

=== FILE: store.dfy ===
/** The two tables of `src/services/storageService.js` as an explicit value:
    the URL list (`shortened_urls`) and the click lists keyed by shortcode
    (`url_analytics`). Each operation maps a store to a new store; times are
    integer milliseconds supplied by the caller. */
module Store {
  import opened Base
  import opened Seqs

  const MillisPerMinute := 60 * 1000
  /** The largest time value a JavaScript `Date` can hold, in milliseconds
      either side of the epoch (section 21.4.1 of ECMA-262). */
  const MaxTimeValue := 8_640_000_000_000_000
  /** The message of the `RangeError` `toISOString` throws outside that range. */
  const InvalidTime := "Invalid time value"
  /** Values `recordClick` fills in when the click data has no such key. */
  const DefaultSource := "direct"
  const DefaultLocation := "Unknown"

  /** The city/region/country triple of the geolocation lookup. */
  datatype Location = Location(city: string, region: string, country: string)

  /** One stored click. `details` is absent when the recorded data had no
      `locationDetails` key. */
  datatype Click = Click(timestamp: int, source: string, location: string, details: Option<Location>)

  /** The `clickData` object handed to `recordClick`; each key may be absent. */
  datatype ClickData = ClickData(
    timestamp: Option<int>, source: Option<string>, location: Option<string>, details: Option<Location>)

  /** The object handed to `saveURL` by the hook and the form. */
  datatype UrlData = UrlData(originalUrl: string, shortcode: string, validity: int, shortUrl: string)

  /** A stored URL record. `id` is the save time, whose decimal string is the
      source's id. */
  datatype UrlRecord = UrlRecord(
    id: int, originalUrl: string, shortcode: string, validity: int, shortUrl: string,
    createdAt: int, expiresAt: int, clicks: nat)

  /** `analytics` holds the own keys of the parsed analytics object. */
  datatype Store = Store(urls: seq<UrlRecord>, analytics: map<string, seq<Click>>)

  /** The properties every plain JavaScript object inherits from
      `Object.prototype`: reading one of them from the analytics object finds
      a function (or, for `__proto__`, the prototype itself), not a list. */
  const InheritedKeys: set<string> := {
    "constructor", "hasOwnProperty", "isPrototypeOf", "propertyIsEnumerable",
    "toLocaleString", "toString", "valueOf", "__proto__",
    "__defineGetter__", "__defineSetter__", "__lookupGetter__", "__lookupSetter__"}

  /** Reading `code` from the analytics object finds an inherited property:
      it has no own entry and names one of `InheritedKeys`. */
  predicate Inherits(s: Store, code: string) {
    code !in s.analytics && code in InheritedKeys
  }

  /** Whether `t` is a time a `Date` can represent. */
  predicate InDateRange(t: int) {
    -MaxTimeValue <= t <= MaxTimeValue
  }

  /** `saveURL` at `now` can format both of its dates. */
  predicate SaveFits(validity: int, now: int) {
    InDateRange(now) && InDateRange(now + validity * MillisPerMinute)
  }

  /** The state when nothing has been stored (or the stored data is unreadable). */
  const EmptyStore := Store([], map[])

  /** `saveURL`'s result: the new store and the record it appended. */
  datatype Saved = Saved(store: Store, record: UrlRecord)

  /** `saveURL(data)` at time `now`. Formatting an expiry instant beyond the
      `Date` range throws, and the error is rethrown before anything is
      written. */
  function SaveURL(s: Store, data: UrlData, now: int): (r: Result<Saved>)
    // the save fails exactly when a date it formats is out of range
    ensures r.Err? <==> !InDateRange(now) || !InDateRange(now + data.validity * MillisPerMinute)
    ensures r.Err? ==> r.error == InvalidTime
    // exactly one record is appended; earlier records keep their values and order
    ensures r.Ok? ==> r.value.store.urls == s.urls + [r.value.record] && r.value.store.analytics == s.analytics
    // the stored record starts with no clicks and lives `validity` minutes from `now`
    ensures r.Ok? ==>
      && r.value.record.clicks == 0
      && r.value.record.createdAt == now
      && r.value.record.expiresAt - r.value.record.createdAt == data.validity * MillisPerMinute
    // the caller's fields are copied unchanged
    ensures r.Ok? ==>
      && r.value.record.originalUrl == data.originalUrl && r.value.record.shortcode == data.shortcode
      && r.value.record.validity == data.validity && r.value.record.shortUrl == data.shortUrl
  {
    if !SaveFits(data.validity, now) then Err(InvalidTime)
    else
      var record := UrlRecord(
        now, data.originalUrl, data.shortcode, data.validity, data.shortUrl,
        now, now + data.validity * MillisPerMinute, 0);
      Ok(Saved(Store(s.urls + [record], s.analytics), record))
  }

  /** `urls.findIndex(url => url.shortcode === code)`, with `None` for `-1`. */
  function FirstMatch(urls: seq<UrlRecord>, code: string): (r: Option<nat>)
    ensures r.Some? ==>
      && r.value < |urls|
      && urls[r.value].shortcode == code
      && forall j :: 0 <= j < r.value ==> urls[j].shortcode != code
    ensures r.None? <==> forall j :: 0 <= j < |urls| ==> urls[j].shortcode != code
  {
    if |urls| == 0 then None
    else if urls[0].shortcode == code then Some(0)
    else match FirstMatch(urls[1..], code)
      case None => None
      case Some(i) => Some(i + 1)
  }

  /** `getAllShortcodes`: the codes of the URL list, position by position. */
  function AllShortcodes(s: Store): (r: seq<string>)
    ensures |r| == |s.urls|
    ensures forall i :: 0 <= i < |s.urls| ==> r[i] == s.urls[i].shortcode
  {
    seq(|s.urls|, i requires 0 <= i < |s.urls| => s.urls[i].shortcode)
  }

  /** `isShortcodeExists`: some record carries `code`. */
  function IsShortcodeExists(s: Store, code: string): (b: bool)
    ensures b <==> code in AllShortcodes(s)
  {
    FirstMatch(s.urls, code).Some?
  }

  /** `getURLByShortcode`: the first record carrying `code`, if any. */
  function GetURLByShortcode(s: Store, code: string): (r: Option<UrlRecord>)
    ensures r.Some? <==> code in AllShortcodes(s)
    ensures r.Some? ==>
      exists i :: 0 <= i < |s.urls| && s.urls[i] == r.value && r.value.shortcode == code &&
        forall j :: 0 <= j < i ==> s.urls[j].shortcode != code
  {
    match FirstMatch(s.urls, code)
    case None => None
    case Some(i) => Some(s.urls[i])
  }

  /** A saved record can be looked up by its code, unless an earlier record
      already carries that code, in which case the earlier one keeps
      answering and the new record is unreachable by lookup. */
  lemma SaveThenLookup(s: Store, data: UrlData, now: int)
    ensures var r := SaveURL(s, data, now);
      r.Ok? && data.shortcode !in AllShortcodes(s) ==>
        GetURLByShortcode(r.value.store, data.shortcode) == Some(r.value.record)
    ensures var r := SaveURL(s, data, now);
      r.Ok? && data.shortcode in AllShortcodes(s) ==>
        GetURLByShortcode(r.value.store, data.shortcode) == GetURLByShortcode(s, data.shortcode)
  {
    var r := SaveURL(s, data, now);
    if r.Ok? {
      FirstMatchAppend(s.urls, r.value.record, data.shortcode);
    }
  }

  /** Appending a record changes the first match only when there was none. */
  lemma {:induction false} FirstMatchAppend(urls: seq<UrlRecord>, u: UrlRecord, code: string)
    ensures FirstMatch(urls, code).Some? ==> FirstMatch(urls + [u], code) == FirstMatch(urls, code)
    ensures FirstMatch(urls, code).None? && u.shortcode == code ==> FirstMatch(urls + [u], code) == Some(|urls|)
    decreases |urls|
  {
    if |urls| > 0 {
      assert (urls + [u])[1..] == urls[1..] + [u];
      FirstMatchAppend(urls[1..], u, code);
    }
  }

  /** What `analytics[code] || []` evaluates to: a click list, or the
      inherited property, which is no list at all. */
  datatype Lookup = Clicks(list: seq<Click>) | NotAList

  /** `getURLAnalytics`: the clicks stored for `code`, or none. */
  function GetURLAnalytics(s: Store, code: string): (r: Lookup)
    ensures code in s.analytics ==> r == Clicks(s.analytics[code])
    // a code with no clicks reads as an empty list, unless it names an inherited property
    ensures r == NotAList <==> Inherits(s, code)
    ensures code !in s.analytics && !Inherits(s, code) ==> r == Clicks([])
  {
    if code in s.analytics then Clicks(s.analytics[code])
    else if code in InheritedKeys then NotAList
    else Clicks([])
  }

  /** The click `recordClick` stores: `timestamp`, `source` and `location`
      defaults, then every key of `data` spread over them. A key present in
      `data` therefore wins even when its value is empty. */
  function MergeClick(data: ClickData, now: int): (c: Click)
    ensures data.timestamp.Some? ==> c.timestamp == data.timestamp.value
    ensures data.timestamp.None? ==> c.timestamp == now
    ensures data.source.Some? ==> c.source == data.source.value
    ensures data.source.None? ==> c.source == DefaultSource
    ensures data.location.Some? ==> c.location == data.location.value
    ensures data.location.None? ==> c.location == DefaultLocation
    ensures c.details == data.details
  {
    Click(
      if data.timestamp.Some? then data.timestamp.value else now,
      if data.source.Some? then data.source.value else DefaultSource,
      if data.location.Some? then data.location.value else DefaultLocation,
      data.details)
  }

  /** `recordClick(code, data)` at time `now`. For an inherited key the
      existence test finds the inherited property, `push` then throws, and
      the error is swallowed before either table is written. */
  function RecordClick(s: Store, code: string, data: ClickData, now: int): (r: Store)
    // an inherited key records nothing at all
    ensures Inherits(s, code) ==> r == s
    // otherwise exactly one click is appended to the code's list, which is created if
    // absent, whether or not a URL record carries the code
    ensures !Inherits(s, code) ==>
      && code in r.analytics
      && GetURLAnalytics(r, code) == Clicks(GetURLAnalytics(s, code).list + [MergeClick(data, now)])
    // other codes' click lists are untouched
    ensures forall c :: c != code ==> (c in r.analytics <==> c in s.analytics)
    ensures forall c :: c != code && c in s.analytics ==> r.analytics[c] == s.analytics[c]
    // only the click count of the first record carrying the code changes, by one
    ensures |r.urls| == |s.urls|
    ensures forall j :: 0 <= j < |s.urls| ==> r.urls[j] == s.urls[j].(clicks := r.urls[j].clicks)
    ensures forall j :: 0 <= j < |s.urls| ==>
      r.urls[j].clicks == s.urls[j].clicks + (if !Inherits(s, code) && FirstMatch(s.urls, code) == Some(j) then 1 else 0)
    // with no such record the URL table is unchanged (the click is kept as an orphan)
    ensures !IsShortcodeExists(s, code) ==> r.urls == s.urls
  {
    if Inherits(s, code) then s
    else
      var analytics := s.analytics[code := GetURLAnalytics(s, code).list + [MergeClick(data, now)]];
      match FirstMatch(s.urls, code)
      case None => Store(s.urls, analytics)
      case Some(i) =>
        Store(s.urls[i := s.urls[i].(clicks := s.urls[i].clicks + 1)], analytics)
  }

  /** A record is still live at `now` when it expires strictly later. */
  predicate IsLive(u: UrlRecord, now: int) {
    u.expiresAt > now
  }

  /** The test the redirect and the statistics page apply: a record has
      expired once its expiry instant is reached. It is the exact negation
      of `IsLive`. */
  predicate IsExpiredAt(u: UrlRecord, now: int) {
    u.expiresAt <= now
  }

  /** The sweep's filter as a first-class predicate. */
  function LiveAt(now: int): UrlRecord -> bool {
    u => IsLive(u, now)
  }

  /** `removeExpiredURLs` at time `now`. */
  function RemoveExpiredURLs(s: Store, now: int): (r: Store)
    // analytics are left alone, including those of removed codes
    ensures r.analytics == s.analytics
    // the kept records are an order-preserving subsequence ...
    ensures IsSubseq(r.urls, s.urls)
    // ... of live records only ...
    ensures forall i :: 0 <= i < |r.urls| ==> IsLive(r.urls[i], now) && r.urls[i] in s.urls
    // ... containing every live record, as often as it occurs
    ensures forall i :: 0 <= i < |s.urls| && IsLive(s.urls[i], now) ==> s.urls[i] in r.urls
    ensures |r.urls| == Count(s.urls, LiveAt(now))
  {
    Store(Filter(s.urls, LiveAt(now)), s.analytics)
  }

  /** Sweeping twice at the same instant removes nothing the first sweep left. */
  lemma SweepIdempotent(s: Store, now: int)
    ensures RemoveExpiredURLs(RemoveExpiredURLs(s, now), now) == RemoveExpiredURLs(s, now)
  {
    var once := RemoveExpiredURLs(s, now);
    FilterKeepsAll(once.urls, LiveAt(now));
  }

  /** No two records share a shortcode. */
  predicate UniqueShortcodes(s: Store) {
    forall i, j :: 0 <= i < j < |s.urls| ==> s.urls[i].shortcode != s.urls[j].shortcode
  }
}

=== FILE: text.dfy ===
/** String helpers for the JavaScript string methods the core relies on:
    `includes`, `toLowerCase` (ASCII letters only) and the character class
    `[a-zA-Z0-9]`. */
module Text {

  /** `s.startsWith(p)`. */
  predicate IsPrefix(p: string, s: string) {
    |p| <= |s| && s[..|p|] == p
  }

  /** `t` occurs in `s` starting at index `i`. */
  ghost predicate OccursAt(s: string, t: string, i: int) {
    0 <= i && i + |t| <= |s| && s[i..i + |t|] == t
  }

  /** `s.includes(t)`, computed by trying every start position in turn. */
  predicate Contains(s: string, t: string)
    decreases |s|
  {
    IsPrefix(t, s) || (|s| > 0 && Contains(s[1..], t))
  }

  /** `Contains` agrees with the positional definition of a substring. */
  lemma {:induction false} ContainsIff(s: string, t: string)
    ensures Contains(s, t) <==> exists i :: OccursAt(s, t, i)
    decreases |s|
  {
    if IsPrefix(t, s) {
      assert OccursAt(s, t, 0);
    } else if |s| > 0 {
      ContainsIff(s[1..], t);
      if Contains(s[1..], t) {
        var i :| OccursAt(s[1..], t, i);
        assert s[i + 1..i + 1 + |t|] == s[1..][i..i + |t|];
        assert OccursAt(s, t, i + 1);
      }
      if exists i :: OccursAt(s, t, i) {
        if |t| <= |s| {
          assert s[0..|t|] == s[..|t|];
        }
        var i :| OccursAt(s, t, i);
        assert i > 0;
        assert s[1..][i - 1..i - 1 + |t|] == s[i..i + |t|];
        assert OccursAt(s[1..], t, i - 1);
      }
    } else {
      assert |t| > 0;
      assert forall i :: !OccursAt(s, t, i);
    }
  }

  /** Lower-cases an ASCII upper-case letter; any other character is kept. */
  function LowerChar(c: char): char {
    if 'A' <= c <= 'Z' then (c as int + 32) as char else c
  }

  /** `s.toLowerCase()` restricted to ASCII letters. */
  function ToLower(s: string): (r: string)
    ensures |r| == |s|
  {
    seq(|s|, i requires 0 <= i < |s| => LowerChar(s[i]))
  }

  /** One character of the class `[a-zA-Z0-9]`. */
  predicate IsAlnum(c: char) {
    ('a' <= c <= 'z') || ('A' <= c <= 'Z') || ('0' <= c <= '9')
  }

  /** Every character of `s` belongs to `[a-zA-Z0-9]`. */
  predicate AllAlnum(s: string) {
    forall i :: 0 <= i < |s| ==> IsAlnum(s[i])
  }
}

=== FILE: validators.dfy ===
/** The three input validators of `src/utils/validators.js`. Each returns
    either success (with the normalised value, for the validity period) or
    the exact error message the form and the hook show to the user. */
module Validators {
  import opened Base
  import opened Text

  const UrlRequired := "URL is required"
  const UrlBadScheme := "URL must start with http:// or https://"
  const UrlBadFormat := "Invalid URL format"
  const ValidityNotPositive := "Validity must be a positive number"
  const ShortcodeNotAlnum := "Shortcode must be alphanumeric"
  const ShortcodeBadLength := "Shortcode must be between 3 and 20 characters"
  const ShortcodeTaken := "Shortcode already exists"

  /** Validity period, in minutes, used when the field is left blank. */
  const DefaultValidity := 30
  const MinShortcodeLength := 3
  const MaxShortcodeLength := 20

  /** The browser's `new URL(s)` seen through the one field validation reads:
      the protocol (`"http:"`, `"mailto:"`, ...) of the parsed URL, or `None`
      when the constructor throws. */
  type ProtocolParser = string -> Option<string>

  /** A protocol the shortener accepts. */
  predicate IsWebProtocol(protocol: string) {
    protocol == "http:" || protocol == "https:"
  }

  /** `validateURL`. `url` is `None` when the value is `null`, `undefined` or
      not a string at all. */
  function ValidateURL(url: Option<string>, protocolOf: ProtocolParser): (r: Result<()>)
    // missing and empty input is rejected before the parser is consulted
    ensures url == None || url == Some("") ==> r == Err(UrlRequired)
    // accepted exactly when the input parses with a web protocol
    ensures r.Ok? <==>
      url.Some? && url.value != "" && protocolOf(url.value).Some? && IsWebProtocol(protocolOf(url.value).value)
    // a non-empty input the parser rejects is reported as a format error
    ensures url.Some? && url.value != "" && protocolOf(url.value) == None ==> r == Err(UrlBadFormat)
    // a non-empty input that parses with any other protocol gets the scheme message, and only it does
    ensures r == Err(UrlBadScheme) <==>
      url.Some? && url.value != "" && protocolOf(url.value).Some? && !IsWebProtocol(protocolOf(url.value).value)
  {
    match url
    case None => Err(UrlRequired)
    case Some(s) =>
      if s == "" then Err(UrlRequired)
      else match protocolOf(s)
        case None => Err(UrlBadFormat)
        case Some(protocol) =>
          if protocol in ["http:", "https:"] then Ok(()) else Err(UrlBadScheme)
  }

  /** The validity field after JavaScript's `Number(...)` coercion: blank
      (`''`, `null` or `undefined`), a value that coerces to `NaN`, or a
      finite number. */
  datatype ValidityInput = Blank | NotANumber | Number(n: real)

  /** `validateValidity`: the whole number of minutes a short link lives. */
  function ValidateValidity(v: ValidityInput): (r: Result<int>)
    ensures v == Blank ==> r == Ok(DefaultValidity)
    ensures v == NotANumber ==> r == Err(ValidityNotPositive)
    ensures v.Number? ==> (r.Ok? <==> v.n >= 1.0)
    ensures r.Err? ==> r.error == ValidityNotPositive
    // every accepted period is at least one minute
    ensures r.Ok? ==> r.value >= 1
    // an accepted number is rounded down to a whole number of minutes
    ensures v.Number? && r.Ok? ==> r.value as real <= v.n < r.value as real + 1.0
  {
    match v
    case Blank => Ok(DefaultValidity)
    case NotANumber => Err(ValidityNotPositive)
    case Number(n) => if n < 1.0 then Err(ValidityNotPositive) else Ok(n.Floor)
  }

  /** `validateShortcode`: an optional custom code, checked against the
      codes already in use. */
  function ValidateShortcode(code: string, existing: seq<string>): (r: Result<()>)
    // the field is optional: an empty code passes whatever is in use
    ensures code == "" ==> r.Ok?
    // a non-empty code passes exactly when all three checks pass
    ensures code != "" ==>
      (r.Ok? <==> AllAlnum(code) && MinShortcodeLength <= |code| <= MaxShortcodeLength && code !in existing)
    // the checks run in the order format, length, uniqueness; the first failure is reported
    ensures code != "" && !AllAlnum(code) ==> r == Err(ShortcodeNotAlnum)
    ensures code != "" && AllAlnum(code) && !(MinShortcodeLength <= |code| <= MaxShortcodeLength) ==>
      r == Err(ShortcodeBadLength)
    ensures code != "" && AllAlnum(code) && MinShortcodeLength <= |code| <= MaxShortcodeLength && code in existing ==>
      r == Err(ShortcodeTaken)
  {
    if code == "" then Ok(())
    else if !AllAlnum(code) then Err(ShortcodeNotAlnum)
    else if |code| < MinShortcodeLength || |code| > MaxShortcodeLength then Err(ShortcodeBadLength)
    else if code in existing then Err(ShortcodeTaken)
    else Ok(())
  }
}
